=== FILE: README.md ===
# b3-rs IR core in Dafny

A functional model of three coupled pieces of the b3-rs JIT backend's
intermediate representation, with proofs of what each operation guarantees.

- **Basic blocks** (`Block`, `block.dfy`). A `BasicBlock` holds an ordered
  value list, a predecessor list and a successor list of `(target, Frequency)`
  edges. The module models:
  - the positional views `taken`, `not_taken` and `fallthrough`;
  - `append_non_terminal`, which inserts before the terminal;
  - idempotent `add_predecessor`;
  - first-match `remove_predecessor`, `remove_successor` and `remove_successor2`;
  - replace-all `replace_successor`, and `replace_predecessor`;
  - the `max_frequency` merge.
- **The procedure** (`Proc`, `procedure.dfy`). A `Procedure` is a block
  arena, an append-only value store and a variable store, plus the
  dominator and natural-loop caches. The module models:
  - the `Graph` view;
  - `add_block` and `add_to_block`;
  - `clone`;
  - the checked constructors (binary, load, store, variable get/set);
  - the integer arms of the constant constructors, with `as`-cast truncation written out;
  - the batch `reset_value_owners` pass;
  - the lazily filled, never-invalidated analysis caches.
- **The block builder** (`Builder`, `builder.dfy`). `BasicBlockBuilder`
  provides `append`, `add_jump` and `add_branch`. The last two install a
  block's terminal edges.
- **Air instructions** (`AirInst`, `air_inst.dfy`). An `Inst` has operands,
  an origin value, a kind and a stream index. The module models:
  - the triangular offset into an opcode's 21-slot row of the operand-form table;
  - the ordered const and mut operand traversals;
  - the tmp, reg and stack-slot projection families;
  - the `has_late_use_or_def`, `has_early_def` and `needs_padding` predicates.

Shared handles (`ValueId`, `BlockId`, `VariableId`), `Option` and the
`usize` constants are in `Ids` (`ids.dfy`).

Modelling conventions:
- Every mutation is a pure function from the old state to the new one.
- An operation that returns a `bool` in the source returns a
  `Change(value, changed)`. The one method among them, `ReplaceSuccessor`,
  returns the block and the flag as two out-parameters instead.
- A factory call returns `Fresh(proc, id)`.
- A source `assert!`/`panic!` on a caller-supplied argument becomes the
  `Panic(fault)` arm of a `Result`. An out-of-range handle, which the source
  treats as a bug and unwraps or indexes, is a `requires`.
- The operand-form table, its decoders and the opcode numbering are a
  `FormTable` input. Each operand kind's expansion into temporaries,
  registers or stack slots is a `Projection` input, and its in-place
  rewrite is an `InPlaceWalk` input.
- A Rust `FnMut` callback that rewrites operands may keep state between
  calls. The model makes that state explicit: the callback takes a state
  and returns the next one with its replacement, and the traversal threads
  it from operand to operand (`AirInst.Threaded`). The read-only
  traversals return their visit sequence instead, which any stateful
  consumer can fold over.

Behaviour of the code that is easy to misread:
- `Inst` equality is derived over all four fields, so the transient `index`
  takes part (`AirInst.ConstructorsAndEquality`).
- `taken` only needs one successor: it reads entry 0.
- `has_late_use_or_def` and `has_early_def` reject only `Patch` themselves.
  They then call `for_each_arg`, which also faults on the other five
  variadic opcodes. So the model excludes all six.
- `needs_padding` short-circuits. `next` is therefore only required to be
  traversable when `prev` has a late use or def.
- `BasicBlockBuilder::add_branch` calls a `Procedure::add_branch` that is not
  defined in `src/procedure.rs`. It is modelled as an opaque constructor
  that appends one fresh Void value whose only child is the condition
  (`Proc.AddBranchValue`).

## Model

| member | source | states |
|---|---|---|
| Block.SuccessorViews | src/block.rs:32-89 | for every block, `set_successors(t)` leaves exactly `[t]` and `set_successors2(t1, t2)` exactly `[t1, t2]`, changing nothing else; `taken` then reads entry 0, `not_taken` entry 1 and `fallthrough` the last entry |
| Block.Append | src/block.rs:65-67 | the value list grows by one, with `v` last and the earlier values unchanged; the other fields are unchanged |
| Block.AppendNonTerminal | src/block.rs:69-74 | on a non-empty list, the length grows by one and the old last value is still last; `v` sits at `len-2` and all earlier values are unchanged; deleting `v` gives back the old list, and the multiset gains exactly `v` |
| Block.AppendSuccessor | src/block.rs:76-78 | the new edge becomes the fallthrough, and the earlier edges are unchanged |
| Block.ReplaceSuccessor | src/block.rs:91-102 | every edge to `from` now targets `to`, each frequency and the list length are preserved, and the result is true iff some edge targeted `from` (matching the `Retarget` reference definition) |
| Block.RetargetRoundTrip | src/block.rs:91-102 | retargeting `from`→`to` and back restores the edge list whenever `to` was not already a target |
| Block.FirstIndex | src/block.rs:130 | `position` finds the first matching entry, or none iff no entry matches |
| Block.AddPredecessor | src/block.rs:120-127 | returns true iff `p` was absent; then `p` is appended; otherwise nothing changes; afterwards `p` is present |
| Block.AddPredecessorIdempotent | src/block.rs:120-127 | adding the same predecessor twice equals adding it once; the second call reports no change |
| Block.RemovePredecessor | src/block.rs:129-137 | true iff `p` was present; exactly the first occurrence is deleted and the others keep their order; an absent `p` changes nothing |
| Block.RemoveUndoesAdd | src/block.rs:120-137 | removing a predecessor just added (when it was absent) restores the block and reports a change |
| Block.RemoveSuccessor | src/block.rs:139-147 | true iff some edge targets `s`; exactly the first such edge is deleted and the rest keep their order; otherwise nothing changes |
| Block.RemoveSuccessorWhere | src/block.rs:139-160 | the shared first-match deletion: changed iff some edge's target matches; the removed edge is the first match |
| Block.RemoveSuccessor2 | src/block.rs:149-160 | true iff `s1` or `s2` is a target; exactly the first edge targeting either is deleted; otherwise nothing changes |
| Block.RemoveSuccessor2Degenerate | src/block.rs:139-160 | `remove_successor2(s, s)` behaves exactly as `remove_successor(s)` |
| Block.ReplacePredecessor | src/block.rs:162-169 | the first `from` entry, if any, is deleted with the order of the rest kept, and then `to` is appended unless already present; every other predecessor is kept; the result is true iff `from` was present or `to` was absent, and when false nothing changed |
| Block.PredecessorEditsKeepNoDuplicates | src/block.rs:120-169 | add, remove and replace keep a duplicate-free predecessor list duplicate-free; after removing or replacing `p` by a different block, `p` is gone |
| Block.RemoveKeepsNoDuplicates | src/block.rs:129-137 | on a duplicate-free list, removal leaves no occurrence of the removed predecessor |
| Block.MaxFrequency | src/block.rs:317-323 | the merge is Rare iff both inputs are Rare |
| Block.FrequencyLattice | src/block.rs:304-323 | Normal is absorbing and Rare is the identity; the merge is commutative, associative and idempotent |
| Proc.GraphView | src/procedure.rs:23-55 | for every procedure and block, the root is block 0, the node count is the number of blocks, and node and index round-trip; successors are the target ids of the edge list, in order, and predecessors are the block's own list |
| Proc.AddValue | src/procedure.rs:82-84 | the store grows by exactly the given value, at the next id, and nothing else changes |
| Proc.AddBlock | src/procedure.rs:146-152 | returns `BlockId(n)` for the old block count `n`; the new block has index `n` and no values or edges; earlier blocks and all other state are unchanged |
| Proc.AddBlockPreservesInvariants | src/block.rs:22-30 | a new, edge-free block keeps index coherence, in-range edges, value validity and the predecessor/successor duality |
| Proc.AddToBlock | src/procedure.rs:376-378 | `v` is appended to block `b`'s values; every other block, every other field of `b` and the value store are unchanged |
| Proc.AddToBlockPreservesInvariants | src/procedure.rs:376-378 | appending a value keeps every edge and index invariant, and keeps block values inside the store when `v` is valid |
| Proc.Clone | src/procedure.rs:68-72 | the store grows by one value equal to the original, under a fresh id different from the original's |
| Proc.WrapToI32 | src/procedure.rs:157 | the `as i32` cast gives a value in the i32 range that is congruent to the input mod 2^32, and equal to the input when it already fits |
| Proc.AddIntConstant | src/procedure.rs:154-164 | Int32 and Int64 succeed and any other non-floating type panics; Int32 stores the i32 truncation and Int64 the value unchanged; the new value has no children and sits at the next id |
| Proc.AddBitsConstant | src/procedure.rs:166-176 | Int32 and Int64 succeed and any other non-floating type panics; Int64 stores the signed reading of the bits and Int32 their low 32 bits read as signed |
| Proc.BitsConstantIsReinterpretation | src/procedure.rs:166-176 | the bits constructor equals the integer constructor on the two's-complement reading of the bits, in both integer arms, and on the bits of `x as u64` it equals the integer constructor on `x` |
| Proc.ReinterpretRoundTrip | src/procedure.rs:170 | `u64 as i64` and `i64 as u64` are mutually inverse |
| Proc.WrapToI32Congruent | src/procedure.rs:157 | 32-bit truncation depends only on the value mod 2^32 |
| Proc.AddBinary | src/procedure.rs:207-229 | succeeds iff both operands have the same type and the opcode is binary; a type mismatch is reported first; the new value has that type and children `[lhs, rhs]` and no payload at the next id |
| Proc.AddLoad | src/procedure.rs:241-276 | succeeds iff the opcode is Load, or a narrow load with type Int32; any other opcode is NotALoad; the value has the single child `pointer` and carries the memory range data |
| Proc.AddStore | src/procedure.rs:299-324 | succeeds iff the opcode is a store; the value is Void with children `[value, pointer]` |
| Proc.AddVariable | src/procedure.rs:182-184 | the variable store grows by exactly one variable of the given type, at the next id; the earlier variables are unchanged |
| Proc.AddVariableGet | src/procedure.rs:186-195 | a Get value with the variable's declared type, no children, referring to the variable |
| Proc.AddVariableSet | src/procedure.rs:197-205 | a Void Set value whose only child is the written value, referring to the variable |
| Proc.AddJumpValue | src/procedure.rs:403-411 | a Void Jump value with no children and no payload at the next id |
| Proc.AddBranchValue | src/block.rs:418 | assumed, not derived: the branch constructor the builder calls is not defined in the procedure source, so its effect is taken to be one fresh Void value, at the next id, whose only child is the condition, with nothing else changed |
| Proc.LastListing | src/procedure.rs:380-386 | finds the last block, in storage order, whose values list `v`, or none iff no block lists it |
| Proc.StampBlocks | src/procedure.rs:381-385 | stamping blocks in order leaves each listed value owned by its last listing block; unlisted values are untouched |
| Proc.ResetValueOwners | src/procedure.rs:380-386 | each value listed in a block is owned by the index of the last block listing it; unlisted values keep their owner; every other field, the blocks and the store size are unchanged |
| Proc.OwnerIsLastListingBlock | src/procedure.rs:380-386 | when block indices match positions, a value's new owner is exactly the last block that lists it |
| Proc.ResetValueOwnersIdempotent | src/procedure.rs:380-386 | running the pass twice equals running it once |
| Proc.DominatorsOrCompute | src/procedure.rs:122-128 | afterwards dominators are cached and returned; an existing cache is returned untouched; a new one is computed from the current blocks; nothing else changes |
| Proc.NaturalLoopsOrCompute | src/procedure.rs:130-138 | afterwards loops are cached, and so are dominators when loops imply dominators; an existing loop cache is returned untouched; new loops are built from the current blocks and from the cached, possibly older, dominators, or, when none were cached, from dominators freshly computed over the current blocks |
| Proc.CacheQueriesIdempotent | src/procedure.rs:122-138 | both queries are idempotent and keep "loops cached ⇒ dominators cached" |
| Proc.CachesAreNotInvalidated | src/procedure.rs:122-128 | after a CFG edit the cached dominators still describe the old CFG and are returned as they are |
| Builder.BuilderAppend | src/block.rs:337-339 | the builder's block gains `v` at the end and keeps its index and edges; other blocks, the value and variable stores and the caches are unchanged |
| Builder.AddJump | src/block.rs:401-409 | the store gains one Void Jump value with no children and no payload, which is appended to the block; the block's successors are exactly `[(to, Normal)]`; `to` gains the block as predecessor at most once; no other block's edges or values change, and old targets keep their stale predecessor entry |
| Builder.AddBranch | src/block.rs:411-425 | the store gains one value reading the condition, which is appended to the block; the successors are exactly `[(taken, Normal), notTaken]`; each target gains the block as predecessor at most once; no other block changes |
| Builder.TerminalPreservesDuality | src/block.rs:401-425 | a terminal installed on a block with no successors keeps predecessor/successor duality when it changes no other successor list and adds the block to exactly its targets' predecessor lists |
| Builder.JumpEdges | src/block.rs:401-409 | `add_jump` has exactly that terminal effect with the single target `to` |
| Builder.BranchEdges | src/block.rs:411-425 | `add_branch` has exactly that terminal effect with the targets `taken` then `not_taken` |
| Builder.AddJumpPreservesDuality | src/block.rs:401-409 | a jump from a block with no prior successors keeps predecessor/successor duality |
| Builder.AddBranchPreservesDuality | src/block.rs:411-425 | a branch from a block with no prior successors keeps predecessor/successor duality |
| Builder.LinkPredecessorKeepsDistinct | src/block.rs:408 | registering a predecessor never creates a duplicate entry |
| Builder.TerminalsKeepPredecessorsDistinct | src/block.rs:401-425 | jump and branch never duplicate a predecessor entry |
| Builder.RetargetLeavesStalePredecessor | src/block.rs:401-409 | a second jump to a different target leaves the block in the first target's predecessors although it is no longer a successor, so duality fails |
| Builder.FreshBlocksAreConsistent | src/procedure.rs:146-152 | blocks that are all as `add_block` creates them satisfy in-range edges, duality, index coherence and value validity |
| Builder.FourBlocks | src/procedure.rs:146-152 | four `add_block` calls give four edge-free blocks that satisfy in-range edges, duality, index coherence and value validity |
| Builder.DiamondEdges | src/block.rs:401-425 | four edge-free blocks taken through three `TerminalEdges` steps (a branch 0 → 1, 2, then jumps 1 → 3 and 2 → 3) end with exactly the diamond's successors and predecessors, in duality; the lemma does not call `AddBranch`/`AddJump` itself, and `BranchEdges`/`JumpEdges` prove that those builder calls take exactly these steps |
| AirInst.ConstructorsAndEquality | src/air/inst.rs:14-112 | `new` keeps the operands in order with index 0; `Default` has no operands and index `usize::MAX`; equality sees the index, so the two differ on otherwise equal fields |
| AirInst.FormOffsetOfNoOperands | src/air/inst.rs:71 | with no operands, `wrapping_sub` yields `usize::MAX`, yet the offset is still 0 |
| AirInst.FormOffsetStep | src/air/inst.rs:71 | the sub-table for `n+1` operands starts `n` slots after the one for `n` |
| AirInst.FormSubTablesDisjoint | src/air/inst.rs:71-72 | the sub-tables for distinct arities `1 <= n < m` do not overlap |
| AirInst.FormSlotsInRow | src/air/inst.rs:71-72 | for 1 to 6 operands every slot stays inside the opcode's 21-slot row; arity 6 fills it exactly and arity 7 would start in the next row |
| AirInst.ForEachArgSimple | src/air/inst.rs:65-83 | one visit per operand, in order; visit `i` carries operand `i` and the decoded role, bank and width of slot `opcode*21 + (n-1)n/2 + i` |
| AirInst.ForEachArgSimpleMut | src/air/inst.rs:85-103 | the callback sees exactly the visits of the const traversal; the final state and the rewritten operands are those of the `Threaded` reference fold; origin, kind and index are unchanged |
| AirInst.ThreadedKeepsPrefix | src/air/inst.rs:85-103 | operand `i` is rewritten by the callback from the state the operands before it left, and later calls never revisit it |
| AirInst.ThreadedStateless | src/air/inst.rs:85-103 | a callback that ignores its state rewrites operand by operand as the stateless `RewriteArgs` reference does, and leaves the state as it was |
| AirInst.ThreadedRecordsVisits | src/air/inst.rs:65-103 | a callback that logs what it is handed ends with exactly the read-only traversal's visits: each operand once, in order, with its metadata |
| AirInst.RewriteKeepsForms | src/air/inst.rs:69-72 | a rewritten instruction decodes the same metadata at every position as before |
| AirInst.ForEachArg | src/air/inst.rs:114-142 | for every non-variadic opcode, the traversal is the simple traversal |
| AirInst.ForEachArgMut | src/air/inst.rs:144-172 | for every non-variadic opcode, the mutable traversal reports the const traversal's visits and ends with the state and operands of the `Threaded` reference fold |
| AirInst.HasLateUseOrDef | src/air/inst.rs:35-46 | true iff some operand's role is a late use or a late def |
| AirInst.HasEarlyDef | src/air/inst.rs:48-59 | true iff some operand's role is an early def |
| AirInst.NeedsPadding | src/air/inst.rs:61-63 | true iff `prev` has a late use or def and `next` has an early def |
| AirInst.Flatten | src/air/inst.rs:174-180 | an item is visited iff it is in the expansion of some operand |
| AirInst.FlattenInOrder | src/air/inst.rs:174-180 | operand `k`'s items form one contiguous block, after every earlier operand's and before every later one's |
| AirInst.FlattenAppend | src/air/inst.rs:174-180 | the visit sequence of concatenated operand runs is the concatenation of their visit sequences |
| AirInst.ForEachProjected | src/air/inst.rs:174-244 | `for_each_tmp` (and the reg and stack-slot versions) visit the items of each operand's expansion, tagged as the expansion tags them, and nothing else; operand `k`'s expansion appears once, as one contiguous run after the earlier operands' items and before the later ones' |
| AirInst.ProjectionCarriesOperandForm | src/air/inst.rs:174-180 | when an operand kind tags its items with the operand's metadata, every projected item carries the role, bank and width of its operand |
| AirInst.ForEachProjectedFast | src/air/inst.rs:190-196 | the fast walk visits the items of each operand's metadata-free expansion and nothing else; operand `k`'s expansion appears once, as one contiguous run in operand order |
| AirInst.FastProjectionAgrees | src/air/inst.rs:174-196 | if each kind's fast expansion equals its full expansion minus metadata, the fast walk equals the full walk minus metadata |
| AirInst.ForEachProjectedMut | src/air/inst.rs:182-188 | operand `i` is rewritten by its kind's in-place walk, given its own metadata, the item callback and the state the earlier operands left; the final state is the threaded one; origin, kind and index are unchanged |
| AirInst.ForEachProjectedFastMut | src/air/inst.rs:198-204 | operand `i` is rewritten by its kind's metadata-free in-place walk from the state the earlier operands left; the final state is the threaded one; origin, kind and index are unchanged |

## Left out

- Block and procedure frequency: the `f64` frequency of a block (its field, `new` argument, getter and `add_block` argument) is dropped. Floating point is outside the model.
- Proc.AddIntConstant: the Float and Double arms (an `as f32`/`as f64` conversion) are excluded by the precondition, because floating point is outside the model.
- Proc.AddBitsConstant: the Float and Double arms (`f32::from_bits`/`f64::from_bits`) are excluded by the precondition, for the same reason.
- Display and `fmt` dumps of blocks, procedures and instructions are left out: they only format diagnostic text.
- The dominator and natural-loop algorithms are left out. `Dominators` and `NaturalLoops` only record the CFG and dominators they were built from, which is enough to state the cache discipline. The panicking `dominators()`/`natural_loops()` getters are covered through the `Some` the queries leave behind.
- `blocks_in_pre_order` and `blocks_in_post_order` are left out: their visit-once behaviour lives in the graph worklists, which are not part of this model.
- The remaining unchecked factories (`add_bitcast`, `add_load32`, `add_argument`, `add_i2d`, `add_d2i`, `add_i2f`, `add_f2i`, `add_return`, `add`) are left out beyond `AddValue`. They append a value with no check, as `AddVariableSet` and `AddJumpValue` show.
- The `BasicBlockBuilder` continuation wrappers (`add_int_constant`, `add_binary`, `add_argument`, `add_return`, `add_variable_get`, `add_variable_set`) are left out. Each is a factory call followed by `BuilderAppend`.
- The `&mut` accessors (`taken_mut`, `predecessor_list_mut`, …) and `Deref` to the value list are left out: they hand out raw access with no contract.
- `SparseCollection` is modelled as an append-only sequence. Removal and id reuse are not part of this model.
- `TinyVec` storage is modelled as a sequence.
- `usize` overflow of block counts, value ids and the form base `opcode*21 + offset` is not modelled. The one wrap-around that matters, `0.wrapping_sub(1)`, is.
- The `todo!()` branches for the six variadic Air opcodes are preconditions that exclude those opcodes.
- The contents of the generated form table, the `decode_form_*` bit layouts, the opcode numbering and each `Arg` kind's tmp/reg/stack-slot expansion and in-place rewrite are inputs (`FormTable`, `Projection`, `InPlaceWalk`). The timing classification of operand roles (`IsLateUse`, `IsLateDef`, `IsEarlyDef`) is assumed from the Air role set rather than derived. `src/air/arg.rs`, `src/air/form_table.rs` and `src/air/opcode_generated.rs` are not part of this model.
- `Kind::default()` is taken to be a Nop without effects, and `ValueId::default()` (the origin of `Inst::default()`) is taken to be `ValueId(0)`. `src/air/kind.rs` and `src/value.rs` are not part of this model.
- The mid-level opcode set is a representative enumeration, and `is_binary`/`is_store` are set-membership predicates over it. `src/opcode.rs`, `src/value.rs` and `src/typ.rs` are not part of this model.
- Global predecessor/successor duality after retargeting is not claimed. The builder does not restore it, as `Builder.RetargetLeavesStalePredecessor` shows.

=== FILE: air_inst.dfy ===
/** The low-level Air instruction: an opcode, an ordered operand list, the
    mid-level value it came from, and a stream index. Per-operand metadata
    (role, register bank, width) is not stored on the operands; it is read
    from a generated table keyed by opcode, operand count and position.

    The table's contents, its decoders, the opcode numbering and each
    operand kind's expansion into temporaries, registers and stack slots are
    generated or defined elsewhere; they enter this model as inputs
    (`FormTable`, `Projection`). */
module AirInst {
  import opened Ids

  // ---------------------------------------------------------------------
  // Opcodes, roles and operands

  /** The six opcodes whose operand shape is variadic are named; every
      other opcode has fixed arities and is identified by its code. */
  datatype Opcode =
    | Nop
    | EntrySwitch | Shuffle | Patch | CCall | ColdCCall | WasmBoundsCheck
    | Fixed(code: nat)

  /** The variadic opcodes, whose traversal is an unimplemented fault. */
  predicate Unimplemented(op: Opcode) {
    op in {EntrySwitch, Shuffle, Patch, CCall, ColdCCall, WasmBoundsCheck}
  }

  datatype Kind = Kind(opcode: Opcode, effects: bool)

  /** `Kind::default()`, taken to be a Nop without effects. */
  const DEFAULT_KIND: Kind := Kind(Nop, false)

  /** Operand timing relative to the instruction's execution. */
  datatype ArgRole =
    | Use | ColdUse | LateUse | LateColdUse
    | Def | ZDef | UseDef | UseZDef
    | EarlyDef | EarlyZDef | Scratch | UseAddr

  predicate IsLateUse(role: ArgRole) {
    role in {LateUse, LateColdUse, Scratch}
  }

  predicate IsLateDef(role: ArgRole) {
    role in {Def, ZDef, UseDef, UseZDef}
  }

  predicate IsEarlyDef(role: ArgRole) {
    role in {EarlyDef, EarlyZDef, Scratch}
  }

  datatype Bank = GP | FP

  datatype Width = Width8 | Width16 | Width32 | Width64 | Width128

  /** The decoded metadata of one operand position. */
  datatype ArgForm = ArgForm(role: ArgRole, bank: Bank, width: Width)

  datatype Tmp = Tmp(id: int)
  datatype Reg = Reg(code: nat)
  datatype StackSlotId = StackSlotId(id: nat)

  /** A representative set of operand kinds. */
  datatype Arg =
    | TmpArg(tmp: Tmp)
    | RegArg(reg: Reg)
    | Imm(value: int)
    | Addr(base: Tmp, offset: int)
    | Index(base: Tmp, indexTmp: Tmp, scale: nat, offset: int)
    | StackArg(slot: StackSlotId, offset: int)

  /** Structural equality covers all four fields, the index included. */
  datatype Inst = Inst(args: seq<Arg>, origin: ValueId, kind: Kind, index: nat)

  /** A new instruction copies the operands in order; its index is 0. */
  function NewInst(kind: Kind, origin: ValueId, arguments: seq<Arg>): Inst {
    Inst(arguments, origin, kind, 0)
  }

  /** The default instruction: no operands and the `usize::MAX` index. */
  function DefaultInst(): Inst {
    Inst([], ValueId(0), DEFAULT_KIND, USIZE_MAX)
  }

  /** `new` keeps the operands and sets index 0, `Default` has none and the
      sentinel index, and since equality sees the index the two differ even
      on identical operands, kind and origin. */
  lemma ConstructorsAndEquality(kind: Kind, origin: ValueId, arguments: seq<Arg>, inst: Inst, j: nat)
    ensures NewInst(kind, origin, arguments).args == arguments
    ensures NewInst(kind, origin, arguments).index == 0
    ensures DefaultInst().args == [] && DefaultInst().index == USIZE_MAX
    ensures NewInst(DEFAULT_KIND, ValueId(0), []) != DefaultInst()
    ensures inst.(index := j) == inst <==> j == inst.index
  {
  }

  // ---------------------------------------------------------------------
  // Form table layout

  type Form = nat

  /** The generated per-opcode metadata rows, the opcode numbering used to
      index them, and the decoders of a packed form. */
  datatype FormTable = FormTable(
    forms: seq<Form>,
    ordinal: Opcode -> nat,
    role: Form -> ArgRole,
    bank: Form -> Bank,
    width: Form -> Width)

  /** Slots per opcode row: one sub-table for each arity 1 to 6, packed. */
  const FORM_ROW: nat := 21
  const MAX_ARITY: nat := 6

  /** `a.wrapping_sub(b)` on `usize`. */
  function WrappingSub(a: nat, b: nat): nat
    requires a <= USIZE_MAX && b <= USIZE_MAX
  {
    if a >= b then a - b else a - b + USIZE_MODULUS
  }

  /** Offset of the sub-table for `n` operands within an opcode's row. */
  function FormOffset(n: nat): nat
    requires n <= USIZE_MAX
  {
    WrappingSub(n, 1) * n / 2
  }

  predicate Encodable(inst: Inst) {
    |inst.args| <= USIZE_MAX
  }

  /** Start of the slice of forms for this instruction's opcode and arity. */
  function FormBase(t: FormTable, inst: Inst): nat
    requires Encodable(inst)
  {
    t.ordinal(inst.kind.opcode) * FORM_ROW + FormOffset(|inst.args|)
  }

  /** The form slice starts inside the table and every operand's slot exists. */
  predicate InTable(t: FormTable, inst: Inst) {
    Encodable(inst) && FormBase(t, inst) + |inst.args| <= |t.forms|
  }

  function Decode(t: FormTable, f: Form): ArgForm {
    ArgForm(t.role(f), t.bank(f), t.width(f))
  }

  /** The metadata of operand `i`. */
  function FormAt(t: FormTable, inst: Inst, i: nat): ArgForm
    requires InTable(t, inst) && i < |inst.args|
  {
    Decode(t, t.forms[FormBase(t, inst) + i])
  }

  /** With no operands the wrapped subtraction still yields offset 0. */
  lemma FormOffsetOfNoOperands()
    ensures WrappingSub(0, 1) == USIZE_MAX
    ensures FormOffset(0) == 0
  {
  }

  /** The sub-table for `n + 1` operands starts right after the one for `n`. */
  lemma FormOffsetStep(n: nat)
    requires 1 <= n < USIZE_MAX
    ensures FormOffset(n + 1) == FormOffset(n) + n
  {
    assert WrappingSub(n, 1) == n - 1;
    assert WrappingSub(n + 1, 1) == n;
    var a := (n - 1) * n;
    assert n * (n + 1) == a + 2 * n;
    EvenProduct(n);
    assert (a + 2 * n) / 2 == a / 2 + n;
  }

  lemma {:induction false} EvenProduct(n: nat)
    requires n >= 1
    ensures ((n - 1) * n) % 2 == 0
  {
    if n > 1 {
      EvenProduct(n - 1);
      assert (n - 1) * n == (n - 2) * (n - 1) + 2 * (n - 1);
    }
  }

  /** The sub-tables of distinct arities do not overlap: the one for `n`
      ends where or before the one for `m > n` begins. */
  lemma {:induction false} FormSubTablesDisjoint(n: nat, m: nat)
    requires 1 <= n < m <= USIZE_MAX
    ensures FormOffset(n) + n <= FormOffset(m)
    decreases m - n
  {
    FormOffsetStep(n);
    if n + 1 < m {
      FormSubTablesDisjoint(n + 1, m);
    }
  }

  /** For arities 1 to 6 every slot stays inside the opcode's 21-slot row; a
      seventh operand's sub-table would start at the next opcode's row. */
  lemma FormSlotsInRow(n: nat, i: nat)
    requires 1 <= n <= MAX_ARITY && i < n
    ensures FormOffset(n) + i < FORM_ROW
    ensures FormOffset(MAX_ARITY) + MAX_ARITY == FORM_ROW
    ensures FormOffset(MAX_ARITY + 1) == FORM_ROW
  {
    FormOffsetStep(1);
    FormOffsetStep(2);
    FormOffsetStep(3);
    FormOffsetStep(4);
    FormOffsetStep(5);
    FormOffsetStep(6);
  }

  // ---------------------------------------------------------------------
  // Operand traversal

  /** One callback invocation: the operand and its decoded metadata. */
  datatype Visit = Visit(arg: Arg, form: ArgForm)

  /** Reference definition of the visits a traversal performs. */
  function ArgVisits(t: FormTable, inst: Inst): seq<Visit>
    requires InTable(t, inst)
  {
    seq(|inst.args|, i requires 0 <= i < |inst.args| => Visit(inst.args[i], FormAt(t, inst, i)))
  }

  /** Reference definition of a mutable traversal's effect on the operands. */
  function RewriteArgs(t: FormTable, inst: Inst, f: (Arg, ArgForm) -> Arg): (r: Inst)
    requires InTable(t, inst)
    ensures |r.args| == |inst.args|
    ensures forall i | 0 <= i < |inst.args| :: r.args[i] == f(inst.args[i], FormAt(t, inst, i))
    ensures r == inst.(args := r.args)
  {
    inst.(args := seq(|inst.args|, i requires 0 <= i < |inst.args| => f(inst.args[i], FormAt(t, inst, i))))
  }

  /** Visits the operands in order, decoding slot `i` of the form slice for
      operand `i`. */
  method ForEachArgSimple(t: FormTable, inst: Inst) returns (visits: seq<Visit>)
    requires InTable(t, inst)
    ensures |visits| == |inst.args|
    ensures forall i | 0 <= i < |inst.args| ::
      && visits[i].arg == inst.args[i]
      && visits[i].form == Decode(t, t.forms[t.ordinal(inst.kind.opcode) * FORM_ROW + FormOffset(|inst.args|) + i])
    ensures visits == ArgVisits(t, inst)
  {
    var numOperands := |inst.args|;
    var formOffset := WrappingSub(numOperands, 1) * numOperands / 2;
    var formBase := t.ordinal(inst.kind.opcode) * FORM_ROW + formOffset;
    visits := [];
    var i := 0;
    while i < numOperands
      invariant 0 <= i <= numOperands
      invariant |visits| == i
      invariant forall k | 0 <= k < i :: visits[k] == Visit(inst.args[k], Decode(t, t.forms[formBase + k]))
    {
      var form := t.forms[formBase + i];
      visits := visits + [Visit(inst.args[i], Decode(t, form))];
      i := i + 1;
    }
  }

  /** Reference definition of a mutable traversal whose callback keeps
      state from one call to the next: the state and the rewritten operands
      once the callback has seen the first `n` operands, in order. Operand
      `i` is rewritten with the state the operands before it left behind. */
  function Threaded<S>(t: FormTable, inst: Inst, s0: S, f: (S, Arg, ArgForm) -> (S, Arg), n: nat): (r: (S, seq<Arg>))
    requires InTable(t, inst) && n <= |inst.args|
    ensures |r.1| == n
    decreases n
  {
    if n == 0 then (s0, [])
    else
      var before := Threaded(t, inst, s0, f, n - 1);
      var step := f(before.0, inst.args[n - 1], FormAt(t, inst, n - 1));
      (step.0, before.1 + [step.1])
  }

  /** Seeing more operands never revisits earlier ones: operand `i` keeps
      the rewrite it got from the state the operands before it left. */
  lemma {:induction false} ThreadedKeepsPrefix<S>(t: FormTable, inst: Inst, s0: S, f: (S, Arg, ArgForm) -> (S, Arg), n: nat, i: nat)
    requires InTable(t, inst) && i < n <= |inst.args|
    ensures Threaded(t, inst, s0, f, n).1[i] == f(Threaded(t, inst, s0, f, i).0, inst.args[i], FormAt(t, inst, i)).1
    decreases n
  {
    if i < n - 1 {
      ThreadedKeepsPrefix(t, inst, s0, f, n - 1, i);
    }
  }

  /** The mutable form: the callback is handed the caller's state with each
      operand in turn and returns the new state and the replacement operand;
      it sees exactly the metadata the read-only traversal reports. */
  method ForEachArgSimpleMut<S>(t: FormTable, inst: Inst, s0: S, f: (S, Arg, ArgForm) -> (S, Arg))
    returns (r: Inst, s: S, visits: seq<Visit>)
    requires InTable(t, inst)
    ensures visits == ArgVisits(t, inst)
    ensures (s, r.args) == Threaded(t, inst, s0, f, |inst.args|)
    ensures r.origin == inst.origin && r.kind == inst.kind && r.index == inst.index
  {
    var numOperands := |inst.args|;
    var formOffset := WrappingSub(numOperands, 1) * numOperands / 2;
    var formBase := t.ordinal(inst.kind.opcode) * FORM_ROW + formOffset;
    var args := inst.args;
    s := s0;
    visits := [];
    var i := 0;
    while i < numOperands
      invariant 0 <= i <= numOperands == |args|
      invariant |visits| == i
      invariant forall k | 0 <= k < i :: visits[k] == Visit(inst.args[k], FormAt(t, inst, k))
      invariant (s, args[..i]) == Threaded(t, inst, s0, f, i)
      invariant args[i..] == inst.args[i..]
    {
      var form := Decode(t, t.forms[formBase + i]);
      assert args[i] == inst.args[i] by { assert args[i..][0] == inst.args[i..][0]; }
      visits := visits + [Visit(args[i], form)];
      var step := f(s, args[i], form);
      var next := args[i := step.1];
      assert next[..i + 1] == args[..i] + [step.1];
      assert next[i + 1..] == inst.args[i + 1..] by { assert next[i + 1..] == args[i + 1..]; }
      s, args := step.0, next;
      i := i + 1;
    }
    assert args == args[..i];
    r := inst.(args := args);
  }

  /** A callback that ignores the state rewrites exactly as the stateless
      reference does, and hands the initial state back. */
  lemma {:induction false} ThreadedStateless<S>(t: FormTable, inst: Inst, s0: S, f: (S, Arg, ArgForm) -> (S, Arg), g: (Arg, ArgForm) -> Arg, n: nat)
    requires InTable(t, inst) && n <= |inst.args|
    requires forall s: S, a: Arg, form: ArgForm :: f(s, a, form) == (s, g(a, form))
    ensures Threaded(t, inst, s0, f, n) == (s0, RewriteArgs(t, inst, g).args[..n])
    decreases n
  {
    if n > 0 {
      ThreadedStateless(t, inst, s0, f, g, n - 1);
      var all := RewriteArgs(t, inst, g).args;
      assert all[..n] == all[..n - 1] + [all[n - 1]];
    }
  }

  /** A callback that logs what it is handed and leaves the operand alone
      ends with exactly the visits of the read-only traversal: each operand
      once, in order, with its own metadata. */
  lemma {:induction false} ThreadedRecordsVisits(t: FormTable, inst: Inst, f: (seq<Visit>, Arg, ArgForm) -> (seq<Visit>, Arg), n: nat)
    requires InTable(t, inst) && n <= |inst.args|
    requires forall log: seq<Visit>, a: Arg, form: ArgForm :: f(log, a, form) == (log + [Visit(a, form)], a)
    ensures Threaded(t, inst, [], f, n) == (ArgVisits(t, inst)[..n], inst.args[..n])
    decreases n
  {
    if n > 0 {
      ThreadedRecordsVisits(t, inst, f, n - 1);
      var visits := ArgVisits(t, inst);
      assert visits[..n] == visits[..n - 1] + [visits[n - 1]];
      assert inst.args[..n] == inst.args[..n - 1] + [inst.args[n - 1]];
    }
  }

  /** The generic traversal; the variadic opcodes are excluded because their
      traversal is an unimplemented fault. */
  method ForEachArg(t: FormTable, inst: Inst) returns (visits: seq<Visit>)
    requires !Unimplemented(inst.kind.opcode) && InTable(t, inst)
    ensures visits == ArgVisits(t, inst)
  {
    visits := ForEachArgSimple(t, inst);
  }

  method ForEachArgMut<S>(t: FormTable, inst: Inst, s0: S, f: (S, Arg, ArgForm) -> (S, Arg))
    returns (r: Inst, s: S, visits: seq<Visit>)
    requires !Unimplemented(inst.kind.opcode) && InTable(t, inst)
    ensures visits == ArgVisits(t, inst)
    ensures (s, r.args) == Threaded(t, inst, s0, f, |inst.args|)
    ensures r.origin == inst.origin && r.kind == inst.kind && r.index == inst.index
  {
    r, s, visits := ForEachArgSimpleMut(t, inst, s0, f);
  }

  /** A rewrite keeps the opcode and the operand count, so the rewritten
      instruction decodes exactly the same metadata. */
  lemma RewriteKeepsForms(t: FormTable, inst: Inst, f: (Arg, ArgForm) -> Arg)
    requires InTable(t, inst)
    ensures InTable(t, RewriteArgs(t, inst, f))
    ensures forall i | 0 <= i < |inst.args| :: FormAt(t, RewriteArgs(t, inst, f), i) == FormAt(t, inst, i)
  {
  }

  // ---------------------------------------------------------------------
  // Timing predicates

  /** True when some operand's role is a late use or a late def. */
  method HasLateUseOrDef(t: FormTable, inst: Inst) returns (result: bool)
    requires !Unimplemented(inst.kind.opcode) && InTable(t, inst)
    ensures result <==> exists i | 0 <= i < |inst.args| ::
      IsLateUse(FormAt(t, inst, i).role) || IsLateDef(FormAt(t, inst, i).role)
  {
    var visits := ForEachArg(t, inst);
    result := false;
    var i := 0;
    while i < |visits|
      invariant 0 <= i <= |visits|
      invariant result <==> exists k | 0 <= k < i :: IsLateUse(visits[k].form.role) || IsLateDef(visits[k].form.role)
    {
      result := result || IsLateUse(visits[i].form.role) || IsLateDef(visits[i].form.role);
      i := i + 1;
    }
    assert forall k | 0 <= k < |visits| :: visits[k].form == FormAt(t, inst, k);
  }

  /** True when some operand's role is an early def. */
  method HasEarlyDef(t: FormTable, inst: Inst) returns (result: bool)
    requires !Unimplemented(inst.kind.opcode) && InTable(t, inst)
    ensures result <==> exists i | 0 <= i < |inst.args| :: IsEarlyDef(FormAt(t, inst, i).role)
  {
    var visits := ForEachArg(t, inst);
    result := false;
    var i := 0;
    while i < |visits|
      invariant 0 <= i <= |visits|
      invariant result <==> exists k | 0 <= k < i :: IsEarlyDef(visits[k].form.role)
    {
      result := result || IsEarlyDef(visits[i].form.role);
      i := i + 1;
    }
    assert forall k | 0 <= k < |visits| :: visits[k].form == FormAt(t, inst, k);
  }

  /** Padding is needed between `prev` and `next` exactly when `prev` has a
      late use or def and `next` an early def. `next` is only inspected when
      `prev` qualifies. */
  method NeedsPadding(t: FormTable, prev: Inst, next: Inst) returns (result: bool)
    requires !Unimplemented(prev.kind.opcode) && InTable(t, prev)
    requires (exists i | 0 <= i < |prev.args| ::
               IsLateUse(FormAt(t, prev, i).role) || IsLateDef(FormAt(t, prev, i).role))
             ==> !Unimplemented(next.kind.opcode) && InTable(t, next)
    ensures result <==>
      && (exists i | 0 <= i < |prev.args| :: IsLateUse(FormAt(t, prev, i).role) || IsLateDef(FormAt(t, prev, i).role))
      && (exists j | 0 <= j < |next.args| :: IsEarlyDef(FormAt(t, next, j).role))
  {
    result := HasLateUseOrDef(t, prev);
    if result {
      result := HasEarlyDef(t, next);
    }
  }

  // ---------------------------------------------------------------------
  // Projections to temporaries, registers and stack slots

  /** How every operand kind expands into items of type `T` (temporaries,
      registers or stack slots): with metadata, and without it (the "fast"
      forms). */
  datatype Projection<!T> = Projection(
    expand: (Arg, ArgForm) -> seq<(T, ArgForm)>,
    expandFast: Arg -> seq<T>)

  /** How every operand kind rewrites its items in place, threading the
      caller's state `S` through the item callback: with metadata, and
      without it. Each returns the state after its items and the rewritten
      operand. */
  datatype InPlaceWalk<!T, !S> = InPlaceWalk(
    rewrite: (S, Arg, ArgForm, (S, T, ArgForm) -> (S, T)) -> (S, Arg),
    rewriteFast: (S, Arg, (S, T) -> (S, T)) -> (S, Arg))

  /** Concatenation, in visit order, of each visit's expansion. */
  function Flatten<T(!new)>(visits: seq<Visit>, f: Visit -> seq<T>): (r: seq<T>)
    ensures forall x :: x in r <==> exists i | 0 <= i < |visits| :: x in f(visits[i])
    decreases |visits|
  {
    if |visits| == 0 then []
    else
      var rest := Flatten(visits[1..], f);
      assert forall i | 1 <= i < |visits| :: visits[i] == visits[1..][i - 1];
      f(visits[0]) + rest
  }

  lemma {:induction false} FlattenAppend<T(!new)>(a: seq<Visit>, b: seq<Visit>, f: Visit -> seq<T>)
    ensures Flatten(a + b, f) == Flatten(a, f) + Flatten(b, f)
    decreases |a|
  {
    if |a| == 0 {
      assert a + b == b;
    } else {
      assert (a + b)[1..] == a[1..] + b;
      FlattenAppend(a[1..], b, f);
    }
  }

  /** Operand `k`'s items form one contiguous block of the projection,
      after those of every earlier operand and before those of every later
      one. */
  lemma {:induction false} FlattenInOrder<T(!new)>(visits: seq<Visit>, f: Visit -> seq<T>, k: nat)
    requires k < |visits|
    ensures Flatten(visits, f) == Flatten(visits[..k], f) + f(visits[k]) + Flatten(visits[k + 1..], f)
  {
    assert visits == visits[..k] + visits[k..];
    FlattenAppend(visits[..k], visits[k..], f);
    assert visits[k..][1..] == visits[k + 1..];
  }

  /** `for_each_tmp` / `for_each_reg` / `for_each_stack_slot`: the generic
      traversal composed with the operand kind's expansion. */
  function ForEachProjected<T(!new)>(t: FormTable, proj: Projection<T>, inst: Inst): (r: seq<(T, ArgForm)>)
    requires !Unimplemented(inst.kind.opcode) && InTable(t, inst)
    ensures forall x :: x in r <==>
      exists i | 0 <= i < |inst.args| :: x in proj.expand(inst.args[i], FormAt(t, inst, i))
    ensures forall k | 0 <= k < |inst.args| ::
      r == Flatten(ArgVisits(t, inst)[..k], (v: Visit) => proj.expand(v.arg, v.form))
           + proj.expand(inst.args[k], FormAt(t, inst, k))
           + Flatten(ArgVisits(t, inst)[k + 1..], (v: Visit) => proj.expand(v.arg, v.form))
  {
    var visits := ArgVisits(t, inst);
    assert forall i | 0 <= i < |visits| :: visits[i] == Visit(inst.args[i], FormAt(t, inst, i));
    forall k | 0 <= k < |inst.args|
      ensures Flatten(visits, (v: Visit) => proj.expand(v.arg, v.form))
        == Flatten(visits[..k], (v: Visit) => proj.expand(v.arg, v.form))
           + proj.expand(inst.args[k], FormAt(t, inst, k))
           + Flatten(visits[k + 1..], (v: Visit) => proj.expand(v.arg, v.form))
    {
      FlattenInOrder(visits, (v: Visit) => proj.expand(v.arg, v.form), k);
    }
    Flatten(visits, (v: Visit) => proj.expand(v.arg, v.form))
  }

  /** The "fast" variants: the same walk without metadata. */
  function ForEachProjectedFast<T(!new)>(t: FormTable, proj: Projection<T>, inst: Inst): (r: seq<T>)
    requires !Unimplemented(inst.kind.opcode) && InTable(t, inst)
    ensures forall x :: x in r <==> exists i | 0 <= i < |inst.args| :: x in proj.expandFast(inst.args[i])
    ensures forall k | 0 <= k < |inst.args| ::
      r == Flatten(ArgVisits(t, inst)[..k], (v: Visit) => proj.expandFast(v.arg))
           + proj.expandFast(inst.args[k])
           + Flatten(ArgVisits(t, inst)[k + 1..], (v: Visit) => proj.expandFast(v.arg))
  {
    var visits := ArgVisits(t, inst);
    assert forall i | 0 <= i < |visits| :: visits[i].arg == inst.args[i];
    forall k | 0 <= k < |inst.args|
      ensures Flatten(visits, (v: Visit) => proj.expandFast(v.arg))
        == Flatten(visits[..k], (v: Visit) => proj.expandFast(v.arg))
           + proj.expandFast(inst.args[k])
           + Flatten(visits[k + 1..], (v: Visit) => proj.expandFast(v.arg))
    {
      FlattenInOrder(visits, (v: Visit) => proj.expandFast(v.arg), k);
    }
    Flatten(visits, (v: Visit) => proj.expandFast(v.arg))
  }

  /** The operand callback the mutable variants hand to the generic
      traversal: the operand kind's in-place walk over the caller's item
      callback. */
  function OperandWalk<T, S>(walk: InPlaceWalk<T, S>, g: (S, T, ArgForm) -> (S, T)): (S, Arg, ArgForm) -> (S, Arg) {
    (s: S, a: Arg, form: ArgForm) => walk.rewrite(s, a, form, g)
  }

  function OperandWalkFast<T, S>(walk: InPlaceWalk<T, S>, g: (S, T) -> (S, T)): (S, Arg, ArgForm) -> (S, Arg) {
    (s: S, a: Arg, form: ArgForm) => walk.rewriteFast(s, a, g)
  }

  /** The mutable variants: operand `i` is rewritten by its kind's in-place
      walk, handed the operand's metadata, the caller's item callback and
      the state the operands before it left behind. */
  function ForEachProjectedMut<T, S>(t: FormTable, walk: InPlaceWalk<T, S>, inst: Inst, s0: S, g: (S, T, ArgForm) -> (S, T)): (r: (S, Inst))
    requires !Unimplemented(inst.kind.opcode) && InTable(t, inst)
    ensures r.0 == Threaded(t, inst, s0, OperandWalk(walk, g), |inst.args|).0
    ensures |r.1.args| == |inst.args|
    ensures forall i | 0 <= i < |inst.args| ::
      r.1.args[i] == walk.rewrite(Threaded(t, inst, s0, OperandWalk(walk, g), i).0, inst.args[i], FormAt(t, inst, i), g).1
    ensures r.1.origin == inst.origin && r.1.kind == inst.kind && r.1.index == inst.index
  {
    var threaded := Threaded(t, inst, s0, OperandWalk(walk, g), |inst.args|);
    forall i | 0 <= i < |inst.args|
      ensures threaded.1[i] == walk.rewrite(Threaded(t, inst, s0, OperandWalk(walk, g), i).0, inst.args[i], FormAt(t, inst, i), g).1
    {
      ThreadedKeepsPrefix(t, inst, s0, OperandWalk(walk, g), |inst.args|, i);
    }
    (threaded.0, inst.(args := threaded.1))
  }

  function ForEachProjectedFastMut<T, S>(t: FormTable, walk: InPlaceWalk<T, S>, inst: Inst, s0: S, g: (S, T) -> (S, T)): (r: (S, Inst))
    requires !Unimplemented(inst.kind.opcode) && InTable(t, inst)
    ensures r.0 == Threaded(t, inst, s0, OperandWalkFast(walk, g), |inst.args|).0
    ensures |r.1.args| == |inst.args|
    ensures forall i | 0 <= i < |inst.args| ::
      r.1.args[i] == walk.rewriteFast(Threaded(t, inst, s0, OperandWalkFast(walk, g), i).0, inst.args[i], g).1
    ensures r.1.origin == inst.origin && r.1.kind == inst.kind && r.1.index == inst.index
  {
    var threaded := Threaded(t, inst, s0, OperandWalkFast(walk, g), |inst.args|);
    forall i | 0 <= i < |inst.args|
      ensures threaded.1[i] == walk.rewriteFast(Threaded(t, inst, s0, OperandWalkFast(walk, g), i).0, inst.args[i], g).1
    {
      ThreadedKeepsPrefix(t, inst, s0, OperandWalkFast(walk, g), |inst.args|, i);
    }
    (threaded.0, inst.(args := threaded.1))
  }

  /** If an operand kind tags each item it yields with the operand's own
      metadata, then every projected item carries the role, bank and width
      of the operand it came from. */
  lemma ProjectionCarriesOperandForm<T(!new)>(t: FormTable, proj: Projection<T>, inst: Inst, x: (T, ArgForm))
    requires !Unimplemented(inst.kind.opcode) && InTable(t, inst)
    requires forall a, form, j | 0 <= j < |proj.expand(a, form)| :: proj.expand(a, form)[j].1 == form
    requires x in ForEachProjected(t, proj, inst)
    ensures exists i | 0 <= i < |inst.args| :: x.1 == FormAt(t, inst, i) && x in proj.expand(inst.args[i], FormAt(t, inst, i))
  {
    var i :| 0 <= i < |inst.args| && x in proj.expand(inst.args[i], FormAt(t, inst, i));
    var items := proj.expand(inst.args[i], FormAt(t, inst, i));
    var j :| 0 <= j < |items| && items[j] == x;
  }

  /** The first components of a sequence of tagged items. */
  function Items<T>(s: seq<(T, ArgForm)>): seq<T> {
    seq(|s|, i requires 0 <= i < |s| => s[i].0)
  }

  /** If an operand kind's fast walk yields the same items as its full walk,
      the fast projection is the full one with the metadata dropped. */
  lemma {:induction false} FastProjectionAgrees<T(!new)>(visits: seq<Visit>, proj: Projection<T>)
    requires forall a, form :: proj.expandFast(a) == Items(proj.expand(a, form))
    ensures Flatten(visits, (v: Visit) => proj.expandFast(v.arg))
         == Items(Flatten(visits, (v: Visit) => proj.expand(v.arg, v.form)))
    decreases |visits|
  {
    if |visits| > 0 {
      FastProjectionAgrees(visits[1..], proj);
      var head := proj.expand(visits[0].arg, visits[0].form);
      var rest := Flatten(visits[1..], (v: Visit) => proj.expand(v.arg, v.form));
      assert Items(head + rest) == Items(head) + Items(rest);
    }
  }
}

=== FILE: block.dfy ===
/** Basic blocks of the mid-level IR and the bookkeeping of their CFG edges:
    the ordered value list, the predecessor list and the frequency-tagged
    successor list. Every operation is a pure function from the old block to
    the new one; an operation that reports whether it changed anything
    returns a `Change`. */
module Block {
  import opened Ids

  /** Coarse execution-likelihood class of a CFG edge. */
  datatype Frequency = Normal | Rare

  /** An outgoing edge: the target block and the edge's frequency. */
  type FrequentBlock = (BlockId, Frequency)

  /** The block's own f64 frequency is not modelled. */
  datatype BasicBlock = BasicBlock(
    index: nat,
    values: seq<ValueId>,
    predecessors: seq<BlockId>,
    successors: seq<FrequentBlock>)

  /** A new value of an operation that also reports whether it changed state. */
  datatype Change<T> = Change(value: T, changed: bool)

  function NewBlock(index: nat): BasicBlock {
    BasicBlock(index, [], [], [])
  }

  /** The target ids of an edge list, in order. */
  function Targets(edges: seq<FrequentBlock>): seq<BlockId> {
    seq(|edges|, i requires 0 <= i < |edges| => edges[i].0)
  }

  predicate NoDuplicates<T(==)>(s: seq<T>) {
    forall i, j | 0 <= i < j < |s| :: s[i] != s[j]
  }

  // ---------------------------------------------------------------------
  // Positional views of the successor list

  /** The branch edge of a two-way terminal: entry 0. */
  function Taken(b: BasicBlock): FrequentBlock
    requires |b.successors| >= 1
  {
    b.successors[0]
  }

  /** The not-taken edge of a two-way terminal: entry 1. */
  function NotTaken(b: BasicBlock): FrequentBlock
    requires |b.successors| >= 2
  {
    b.successors[1]
  }

  /** The last edge, whatever the terminal's shape. */
  function Fallthrough(b: BasicBlock): FrequentBlock
    requires |b.successors| >= 1
  {
    b.successors[|b.successors| - 1]
  }

  // ---------------------------------------------------------------------
  // Value list

  function Append(b: BasicBlock, v: ValueId): (r: BasicBlock)
    ensures |r.values| == |b.values| + 1 && r.values[|b.values|] == v
    ensures r.values[..|b.values|] == b.values
    ensures r == b.(values := r.values)
  {
    b.(values := b.values + [v])
  }

  /** Inserts `v` just before the current last value (the terminal): the
      last value is pushed a second time and its old slot overwritten. */
  function AppendNonTerminal(b: BasicBlock, v: ValueId): (r: BasicBlock)
    requires |b.values| > 0
    ensures |r.values| == |b.values| + 1
    ensures r.values[|r.values| - 1] == b.values[|b.values| - 1]
    ensures r.values[|r.values| - 2] == v
    ensures r.values[..|b.values| - 1] == b.values[..|b.values| - 1]
    ensures r.values[..|r.values| - 2] + r.values[|r.values| - 1..] == b.values
    ensures multiset(r.values) == multiset(b.values) + multiset{v}
    ensures r == b.(values := r.values)
  {
    var last := b.values[|b.values| - 1];
    var pushed := b.values + [last];
    var r := b.(values := pushed[|pushed| - 2 := v]);
    assert r.values == b.values[..|b.values| - 1] + [v] + [last];
    assert b.values == b.values[..|b.values| - 1] + [last];
    r
  }

  // ---------------------------------------------------------------------
  // Successor list

  function AppendSuccessor(b: BasicBlock, e: FrequentBlock): (r: BasicBlock)
    ensures |r.successors| == |b.successors| + 1 && Fallthrough(r) == e
    ensures r.successors[..|b.successors|] == b.successors
    ensures r == b.(successors := r.successors)
  {
    b.(successors := b.successors + [e])
  }

  function SetSuccessors(b: BasicBlock, target: FrequentBlock): BasicBlock {
    b.(successors := [target])
  }

  function SetSuccessors2(b: BasicBlock, target1: FrequentBlock, target2: FrequentBlock): BasicBlock {
    b.(successors := [target1, target2])
  }

  /** Reference definition of retargeting: every edge to `from` now goes to
      `to`, keeping its frequency. */
  function Retarget(edges: seq<FrequentBlock>, from: BlockId, to: BlockId): seq<FrequentBlock> {
    seq(|edges|, i requires 0 <= i < |edges| =>
      if edges[i].0 == from then (to, edges[i].1) else edges[i])
  }

  /** Rewrites the target of every successor equal to `from`, one entry at a
      time, and reports whether any entry matched. */
  method ReplaceSuccessor(b: BasicBlock, from: BlockId, to: BlockId) returns (r: BasicBlock, changed: bool)
    ensures r == b.(successors := Retarget(b.successors, from, to))
    ensures |r.successors| == |b.successors|
    ensures forall i | 0 <= i < |b.successors| :: r.successors[i].1 == b.successors[i].1
    ensures changed <==> from in Targets(b.successors)
  {
    var edges := b.successors;
    changed := false;
    var i := 0;
    while i < |edges|
      invariant 0 <= i <= |edges| == |b.successors|
      invariant forall k | 0 <= k < i :: edges[k] == Retarget(b.successors, from, to)[k]
      invariant forall k | i <= k < |edges| :: edges[k] == b.successors[k]
      invariant changed <==> from in Targets(b.successors[..i])
    {
      assert Targets(b.successors[..i + 1]) == Targets(b.successors[..i]) + [b.successors[i].0];
      if edges[i].0 == from {
        edges := edges[i := (to, edges[i].1)];
        changed := true;
      }
      i := i + 1;
    }
    assert b.successors[..i] == b.successors;
    r := b.(successors := edges);
  }

  /** First position whose entry satisfies `matches`, as `iter().position`. */
  function FirstIndex<T>(s: seq<T>, matches: T -> bool): (r: Option<nat>)
    ensures r.Some? ==> r.value < |s| && matches(s[r.value])
    ensures r.Some? ==> forall j | 0 <= j < r.value :: !matches(s[j])
    ensures r.None? <==> forall j | 0 <= j < |s| :: !matches(s[j])
    decreases |s|
  {
    if |s| == 0 then None
    else if matches(s[0]) then Some(0)
    else match FirstIndex(s[1..], matches)
      case Some(k) => Some(k + 1)
      case None => None
  }

  function RemoveAt<T>(s: seq<T>, k: nat): seq<T>
    requires k < |s|
  {
    s[..k] + s[k + 1..]
  }

  /** Removes the first successor whose target satisfies `matches`. */
  function RemoveSuccessorWhere(b: BasicBlock, matches: BlockId -> bool): (r: Change<BasicBlock>)
    ensures r.changed <==> exists i | 0 <= i < |b.successors| :: matches(b.successors[i].0)
    ensures !r.changed ==> r.value == b
    ensures r.changed ==> exists k | 0 <= k < |b.successors| ::
      && matches(b.successors[k].0)
      && (forall j | 0 <= j < k :: !matches(b.successors[j].0))
      && r.value.successors == b.successors[..k] + b.successors[k + 1..]
    ensures r.value == b.(successors := r.value.successors)
  {
    match FirstIndex(b.successors, (e: FrequentBlock) => matches(e.0))
    case Some(k) => Change(b.(successors := RemoveAt(b.successors, k)), true)
    case None => Change(b, false)
  }

  /** `s` is a target of the first `k` edges iff one of them goes to `s`. */
  lemma TargetsMembership(edges: seq<FrequentBlock>, s: BlockId)
    ensures s in Targets(edges) <==> exists i | 0 <= i < |edges| :: edges[i].0 == s
    ensures forall k | 0 <= k <= |edges| ::
      s in Targets(edges[..k]) <==> exists i | 0 <= i < k :: edges[i].0 == s
  {
    assert forall i | 0 <= i < |edges| :: Targets(edges)[i] == edges[i].0;
    forall k | 0 <= k <= |edges|
      ensures s in Targets(edges[..k]) <==> exists i | 0 <= i < k :: edges[i].0 == s
    {
      assert forall i | 0 <= i < k :: Targets(edges[..k])[i] == edges[i].0;
    }
  }

  /** Deletes the first edge to `s`, keeping the order of the others. */
  function RemoveSuccessor(b: BasicBlock, s: BlockId): (r: Change<BasicBlock>)
    ensures r.changed <==> s in Targets(b.successors)
    ensures !r.changed ==> r.value == b
    ensures r.changed ==> exists k | 0 <= k < |b.successors| ::
      && b.successors[k].0 == s
      && s !in Targets(b.successors[..k])
      && r.value.successors == b.successors[..k] + b.successors[k + 1..]
    ensures r.value == b.(successors := r.value.successors)
  {
    TargetsMembership(b.successors, s);
    RemoveSuccessorWhere(b, t => t == s)
  }

  /** Deletes the first edge whose target is `s1` or `s2`. */
  function RemoveSuccessor2(b: BasicBlock, s1: BlockId, s2: BlockId): (r: Change<BasicBlock>)
    ensures r.changed <==> s1 in Targets(b.successors) || s2 in Targets(b.successors)
    ensures !r.changed ==> r.value == b
    ensures r.changed ==> exists k | 0 <= k < |b.successors| ::
      && (b.successors[k].0 == s1 || b.successors[k].0 == s2)
      && (forall j | 0 <= j < k :: b.successors[j].0 != s1 && b.successors[j].0 != s2)
      && r.value.successors == b.successors[..k] + b.successors[k + 1..]
    ensures r.value == b.(successors := r.value.successors)
  {
    TargetsMembership(b.successors, s1);
    TargetsMembership(b.successors, s2);
    RemoveSuccessorWhere(b, t => t == s1 || t == s2)
  }

  // ---------------------------------------------------------------------
  // Predecessor list

  /** `s` with `b` appended unless already present. */
  function WithPredecessor(s: seq<BlockId>, b: BlockId): seq<BlockId> {
    if b in s then s else s + [b]
  }

  /** Appends `p` unless it is already a predecessor; reports whether it did. */
  function AddPredecessor(b: BasicBlock, p: BlockId): (r: Change<BasicBlock>)
    ensures r.changed <==> p !in b.predecessors
    ensures r.changed ==> r.value.predecessors == b.predecessors + [p]
    ensures !r.changed ==> r.value == b
    ensures p in r.value.predecessors
    ensures r.value == b.(predecessors := r.value.predecessors)
  {
    if p in b.predecessors then Change(b, false)
    else Change(b.(predecessors := b.predecessors + [p]), true)
  }

  /** Deletes the first occurrence of `p`, keeping the order of the others. */
  function RemovePredecessor(b: BasicBlock, p: BlockId): (r: Change<BasicBlock>)
    ensures r.changed <==> p in b.predecessors
    ensures !r.changed ==> r.value == b
    ensures r.changed ==> exists k | 0 <= k < |b.predecessors| ::
      && b.predecessors[k] == p
      && p !in b.predecessors[..k]
      && r.value.predecessors == b.predecessors[..k] + b.predecessors[k + 1..]
    ensures r.value == b.(predecessors := r.value.predecessors)
  {
    match FirstIndex(b.predecessors, x => x == p)
    case Some(k) => Change(b.(predecessors := RemoveAt(b.predecessors, k)), true)
    case None => Change(b, false)
  }

  /** Removes `from` then adds `to`; changed if either step changed. */
  function ReplacePredecessor(b: BasicBlock, from: BlockId, to: BlockId): (r: Change<BasicBlock>)
    ensures to in r.value.predecessors
    ensures from in b.predecessors ==> exists k | 0 <= k < |b.predecessors| ::
      && b.predecessors[k] == from
      && from !in b.predecessors[..k]
      && r.value.predecessors == WithPredecessor(b.predecessors[..k] + b.predecessors[k + 1..], to)
    ensures from !in b.predecessors ==> r.value.predecessors == WithPredecessor(b.predecessors, to)
    ensures forall q | q != from && q != to :: q in r.value.predecessors <==> q in b.predecessors
    ensures r.changed <==> from in b.predecessors || to !in b.predecessors
    ensures !r.changed ==> r.value == b
    ensures r.value == b.(predecessors := r.value.predecessors)
  {
    var removed := RemovePredecessor(b, from);
    var added := AddPredecessor(removed.value, to);
    if !removed.changed then
      Change(added.value, added.changed)
    else
      Change(added.value, true)
  }

  // ---------------------------------------------------------------------
  // Frequency merge

  /** Merging two frequencies yields Rare only when both are Rare. */
  function MaxFrequency(a: Frequency, b: Frequency): (r: Frequency)
    ensures r == Rare <==> a == Rare && b == Rare
  {
    match a
    case Normal => a
    case Rare => b
  }

  // ---------------------------------------------------------------------
  // Lemmas

  /** Normal absorbs, Rare is the identity, and merging is a commutative,
      associative, idempotent operation. */
  lemma FrequencyLattice(a: Frequency, b: Frequency, c: Frequency)
    ensures MaxFrequency(Normal, a) == Normal && MaxFrequency(a, Normal) == Normal
    ensures MaxFrequency(Rare, a) == a && MaxFrequency(a, Rare) == a
    ensures MaxFrequency(Rare, Rare) == Rare
    ensures MaxFrequency(a, b) == MaxFrequency(b, a)
    ensures MaxFrequency(MaxFrequency(a, b), c) == MaxFrequency(a, MaxFrequency(b, c))
    ensures MaxFrequency(a, a) == a
  {
  }

  /** `SetSuccessors` and `SetSuccessors2` install exactly the given shape,
      which the positional views then read back. */
  lemma SuccessorViews(b: BasicBlock, t: FrequentBlock, t1: FrequentBlock, t2: FrequentBlock)
    ensures SetSuccessors(b, t).successors == [t]
    ensures Taken(SetSuccessors(b, t)) == t && Fallthrough(SetSuccessors(b, t)) == t
    ensures SetSuccessors2(b, t1, t2).successors == [t1, t2]
    ensures Taken(SetSuccessors2(b, t1, t2)) == t1
    ensures NotTaken(SetSuccessors2(b, t1, t2)) == t2
    ensures Fallthrough(SetSuccessors2(b, t1, t2)) == t2
    ensures SetSuccessors(b, t) == b.(successors := [t])
    ensures SetSuccessors2(b, t1, t2) == b.(successors := [t1, t2])
  {
  }

  /** Adding a predecessor twice is the same as adding it once. */
  lemma AddPredecessorIdempotent(b: BasicBlock, p: BlockId)
    ensures AddPredecessor(AddPredecessor(b, p).value, p) == Change(AddPredecessor(b, p).value, false)
  {
  }

  /** Adding an absent predecessor and then removing it restores the block. */
  lemma {:induction false} RemoveUndoesAdd(b: BasicBlock, p: BlockId)
    requires p !in b.predecessors
    ensures RemovePredecessor(AddPredecessor(b, p).value, p) == Change(b, true)
  {
    var added := AddPredecessor(b, p).value;
    var r := RemovePredecessor(added, p);
    var k :| 0 <= k < |added.predecessors|
      && added.predecessors[k] == p
      && p !in added.predecessors[..k]
      && r.value.predecessors == added.predecessors[..k] + added.predecessors[k + 1..];
    assert k == |b.predecessors|;
    assert added.predecessors[..k] == b.predecessors;
    assert added.predecessors[k + 1..] == [];
    assert r.value.predecessors == b.predecessors;
  }

  /** Neither adding nor removing a predecessor creates a duplicate. */
  lemma {:induction false} PredecessorEditsKeepNoDuplicates(b: BasicBlock, p: BlockId, q: BlockId)
    requires NoDuplicates(b.predecessors)
    ensures NoDuplicates(AddPredecessor(b, p).value.predecessors)
    ensures NoDuplicates(RemovePredecessor(b, p).value.predecessors)
    ensures p != q ==> p !in RemovePredecessor(b, p).value.predecessors
    ensures NoDuplicates(ReplacePredecessor(b, p, q).value.predecessors)
    ensures p != q ==> p !in ReplacePredecessor(b, p, q).value.predecessors
  {
    RemoveKeepsNoDuplicates(b, p);
    var removed := RemovePredecessor(b, p).value;
    assert NoDuplicates(removed.predecessors);
    AddKeepsAbsent(removed, q, p);
  }

  lemma {:induction false} RemoveKeepsNoDuplicates(b: BasicBlock, p: BlockId)
    requires NoDuplicates(b.predecessors)
    ensures NoDuplicates(RemovePredecessor(b, p).value.predecessors)
    ensures p !in RemovePredecessor(b, p).value.predecessors
  {
    var s := b.predecessors;
    var r := RemovePredecessor(b, p);
    if r.changed {
      var k :| 0 <= k < |s| && s[k] == p && p !in s[..k]
        && r.value.predecessors == s[..k] + s[k + 1..];
      RemoveAtKeepsNoDuplicates(s, k);
    }
  }

  /** Entry `i` of `s` with position `k` removed is entry `i` or `i + 1` of `s`. */
  lemma RemoveAtIndex<T>(s: seq<T>, k: nat, i: nat)
    requires k < |s| && i < |s| - 1
    ensures (s[..k] + s[k + 1..])[i] == if i < k then s[i] else s[i + 1]
  {
  }

  lemma RemoveAtKeepsNoDuplicates<T>(s: seq<T>, k: nat)
    requires k < |s| && NoDuplicates(s)
    ensures NoDuplicates(s[..k] + s[k + 1..])
    ensures s[k] !in s[..k] + s[k + 1..]
  {
    var t := s[..k] + s[k + 1..];
    forall i, j | 0 <= i < j < |t|
      ensures t[i] != t[j]
    {
      RemoveAtIndex(s, k, i);
      RemoveAtIndex(s, k, j);
    }
    forall i | 0 <= i < |t|
      ensures t[i] != s[k]
    {
      RemoveAtIndex(s, k, i);
    }
  }

  lemma AddKeepsAbsent(b: BasicBlock, q: BlockId, p: BlockId)
    requires NoDuplicates(b.predecessors)
    requires p != q ==> p !in b.predecessors
    ensures NoDuplicates(AddPredecessor(b, q).value.predecessors)
    ensures p != q ==> p !in AddPredecessor(b, q).value.predecessors
  {
  }

  /** Retargeting back undoes retargeting when `to` was not yet a target. */
  lemma RetargetRoundTrip(edges: seq<FrequentBlock>, from: BlockId, to: BlockId)
    requires to !in Targets(edges)
    ensures Retarget(Retarget(edges, from, to), to, from) == edges
  {
    var once := Retarget(edges, from, to);
    var twice := Retarget(once, to, from);
    forall i | 0 <= i < |edges|
      ensures twice[i] == edges[i]
    {
      assert Targets(edges)[i] == edges[i].0;
    }
  }

  /** Removing the first edge to `s` with either form of removal agrees. */
  lemma RemoveSuccessor2Degenerate(b: BasicBlock, s: BlockId)
    ensures RemoveSuccessor2(b, s, s) == RemoveSuccessor(b, s)
  {
    var r1 := RemoveSuccessor(b, s);
    var r2 := RemoveSuccessor2(b, s, s);
    if r1.changed {
      TargetsMembership(b.successors, s);
      var k1 :| 0 <= k1 < |b.successors|
        && b.successors[k1].0 == s
        && s !in Targets(b.successors[..k1])
        && r1.value.successors == b.successors[..k1] + b.successors[k1 + 1..];
      var k2 :| 0 <= k2 < |b.successors|
        && b.successors[k2].0 == s
        && (forall j | 0 <= j < k2 :: b.successors[j].0 != s)
        && r2.value.successors == b.successors[..k2] + b.successors[k2 + 1..];
      FirstMatchUnique(b.successors, s, k1, k2);
      assert r1.value == b.(successors := r2.value.successors);
    } else {
      assert r1.value == b;
    }
    assert r1.changed == r2.changed;
  }

  /** Two positions that both hold the first edge to `s` are the same. */
  lemma FirstMatchUnique(edges: seq<FrequentBlock>, s: BlockId, k1: nat, k2: nat)
    requires k1 < |edges| && k2 < |edges|
    requires edges[k1].0 == s && edges[k2].0 == s
    requires forall j | 0 <= j < k1 :: edges[j].0 != s
    requires forall j | 0 <= j < k2 :: edges[j].0 != s
    ensures k1 == k2
  {
  }
}

=== FILE: builder.dfy ===
/** The block builder: a façade over one block of a procedure that fuses
    value construction, appending to the block and, for terminals, the
    installation of CFG edges. */
module Builder {
  import opened Ids
  import opened Block
  import opened Proc

  datatype BasicBlockBuilder = BasicBlockBuilder(proc: Procedure, block: BlockId)

  predicate Bound(bb: BasicBlockBuilder) {
    ValidBlock(bb.proc, bb.block)
  }

  /** Replaces block `b` of `p`. */
  function PutBlock(p: Procedure, b: BlockId, block: BasicBlock): Procedure
    requires ValidBlock(p, b)
  {
    p.(blocks := p.blocks[b.id := block])
  }

  /** Every block's predecessor list is duplicate-free. */
  predicate PredecessorsDistinct(p: Procedure) {
    forall k | 0 <= k < |p.blocks| :: NoDuplicates(p.blocks[k].predecessors)
  }

  function BuilderAppend(bb: BasicBlockBuilder, v: ValueId): (r: BasicBlockBuilder)
    requires Bound(bb)
    ensures r.block == bb.block && Bound(r) && |r.proc.blocks| == |bb.proc.blocks|
    ensures r.proc.blocks[bb.block.id].values == bb.proc.blocks[bb.block.id].values + [v]
    ensures r.proc.blocks[bb.block.id] == bb.proc.blocks[bb.block.id].(values := r.proc.blocks[bb.block.id].values)
    ensures forall k | 0 <= k < |bb.proc.blocks| && k != bb.block.id :: r.proc.blocks[k] == bb.proc.blocks[k]
    ensures r.proc == bb.proc.(blocks := r.proc.blocks)
  {
    BasicBlockBuilder(AddToBlock(bb.proc, bb.block, v), bb.block)
  }

  /** The steps both terminals share: clear the block's successor list,
      append the terminal value `v` to the block and install `edges` as the
      new successor list (what `set_successors`/`set_successors2` do). */
  function Terminate(p: Procedure, b: BlockId, v: ValueId, edges: seq<FrequentBlock>): (r: Procedure)
    requires ValidBlock(p, b)
    ensures r == p.(blocks := p.blocks[b.id := p.blocks[b.id].(values := p.blocks[b.id].values + [v], successors := edges)])
    ensures PredecessorsDistinct(p) ==> PredecessorsDistinct(r)
  {
    var cleared := PutBlock(p, b, p.blocks[b.id].(successors := []));
    var appended := AddToBlock(cleared, b, v);
    PutBlock(appended, b, appended.blocks[b.id].(successors := edges))
  }

  /** Registers `b` as a predecessor of `target`, at most once. */
  function LinkPredecessor(p: Procedure, target: BlockId, b: BlockId): (r: Procedure)
    requires ValidBlock(p, target)
    ensures r == p.(blocks := p.blocks[target.id := p.blocks[target.id].(predecessors := WithPredecessor(p.blocks[target.id].predecessors, b))])
  {
    PutBlock(p, target, AddPredecessor(p.blocks[target.id], b).value)
  }

  lemma LinkPredecessorKeepsDistinct(p: Procedure, target: BlockId, b: BlockId)
    requires ValidBlock(p, target) && PredecessorsDistinct(p)
    ensures PredecessorsDistinct(LinkPredecessor(p, target, b))
  {
    PredecessorEditsKeepNoDuplicates(p.blocks[target.id], b, b);
  }

  /** Ends the block with a jump to `to`: clears the successor list, appends
      a fresh jump value, installs the single edge and registers the block as
      a predecessor of `to`. The old targets' predecessor lists are left
      alone. Creating the value touches no block, so it is done first. */
  function AddJump(bb: BasicBlockBuilder, to: BlockId): (r: BasicBlockBuilder)
    requires Bound(bb) && ValidBlock(bb.proc, to)
    ensures r.block == bb.block && Bound(r) && |r.proc.blocks| == |bb.proc.blocks|
    ensures |r.proc.values| == |bb.proc.values| + 1 && r.proc.values[..|bb.proc.values|] == bb.proc.values
    ensures r.proc.values[|bb.proc.values|] == MakeValue(Kind(Jump, 0), Void, [], NoData)
    ensures bb.block in r.proc.blocks[to.id].predecessors
    ensures forall k | 0 <= k < |bb.proc.blocks| ::
      && r.proc.blocks[k].index == bb.proc.blocks[k].index
      && r.proc.blocks[k].values == (if k == bb.block.id then bb.proc.blocks[k].values + [ValueId(|bb.proc.values|)] else bb.proc.blocks[k].values)
      && r.proc.blocks[k].successors == (if k == bb.block.id then [(to, Normal)] else bb.proc.blocks[k].successors)
      && r.proc.blocks[k].predecessors == (if k == to.id then WithPredecessor(bb.proc.blocks[k].predecessors, bb.block) else bb.proc.blocks[k].predecessors)
    ensures r.proc == bb.proc.(values := r.proc.values, blocks := r.proc.blocks)
  {
    var b := bb.block;
    var jump := AddJumpValue(bb.proc);
    var terminated := Terminate(jump.proc, b, jump.id, [(to, Normal)]);
    BasicBlockBuilder(LinkPredecessor(terminated, to, b), b)
  }

  /** Ends the block with a two-way branch: entry 0 is the taken edge, always
      Normal, entry 1 the not-taken edge with the caller's frequency; the
      block becomes a predecessor of both targets (not-taken first). */
  function AddBranch(bb: BasicBlockBuilder, condition: ValueId, taken: BlockId, notTaken: FrequentBlock): (r: BasicBlockBuilder)
    requires Bound(bb) && ValidBlock(bb.proc, taken) && ValidBlock(bb.proc, notTaken.0)
    ensures r.block == bb.block && Bound(r) && |r.proc.blocks| == |bb.proc.blocks|
    ensures |r.proc.values| == |bb.proc.values| + 1 && r.proc.values[..|bb.proc.values|] == bb.proc.values
    ensures r.proc.values[|bb.proc.values|].children == [condition]
    ensures bb.block in r.proc.blocks[taken.id].predecessors
    ensures bb.block in r.proc.blocks[notTaken.0.id].predecessors
    ensures forall k | 0 <= k < |bb.proc.blocks| ::
      && r.proc.blocks[k].index == bb.proc.blocks[k].index
      && r.proc.blocks[k].values == (if k == bb.block.id then bb.proc.blocks[k].values + [ValueId(|bb.proc.values|)] else bb.proc.blocks[k].values)
      && r.proc.blocks[k].successors == (if k == bb.block.id then [(taken, Normal), notTaken] else bb.proc.blocks[k].successors)
      && r.proc.blocks[k].predecessors ==
          (if k == taken.id || k == notTaken.0.id then WithPredecessor(bb.proc.blocks[k].predecessors, bb.block)
           else bb.proc.blocks[k].predecessors)
    ensures r.proc == bb.proc.(values := r.proc.values, blocks := r.proc.blocks)
  {
    var b := bb.block;
    var branch := AddBranchValue(bb.proc, condition);
    var terminated := Terminate(branch.proc, b, branch.id, [(taken, Normal), notTaken]);
    var linked := LinkPredecessor(terminated, notTaken.0, b);
    BasicBlockBuilder(LinkPredecessor(linked, taken, b), b)
  }

  // ---------------------------------------------------------------------
  // Duality

  lemma WithPredecessorMembership(s: seq<BlockId>, b: BlockId, x: BlockId)
    ensures x in WithPredecessor(s, b) <==> x in s || x == b
  {}

  /** A terminal installed on block `b`, which had no successors, keeps the
      duality when it changes no other block's successors and adds `b` to
      the predecessors of exactly its new targets. */
  lemma {:induction false} TerminalPreservesDuality(p: Procedure, q: Procedure, b: BlockId, targets: seq<BlockId>)
    requires ValidBlock(p, b) && |q.blocks| == |p.blocks| && EdgesDual(p)
    requires p.blocks[b.id].successors == [] && TerminalEdges(p, q, b, targets)
    ensures EdgesDual(q)
  {
    forall a, c | 0 <= a < |q.blocks| && 0 <= c < |q.blocks|
      ensures BlockId(c) in Successors(q, BlockId(a)) <==> BlockId(a) in Predecessors(q, BlockId(c))
    {
      assert BlockId(c) in Successors(p, BlockId(a)) <==> BlockId(a) in Predecessors(p, BlockId(c));
      assert b in Predecessors(p, BlockId(c)) <==> BlockId(c) in Successors(p, b);
      WithPredecessorMembership(p.blocks[c].predecessors, b, BlockId(a));
      if a != b.id {
        assert Successors(q, BlockId(a)) == Successors(p, BlockId(a));
      }
    }
  }

  /** A terminal's effect on the edges, in the form the duality argument
      uses: `b`'s successors are exactly `targets`, no other successor list
      changes, and exactly the targets gain `b` as a predecessor. */
  ghost predicate TerminalEdges(p: Procedure, q: Procedure, b: BlockId, targets: seq<BlockId>)
    requires ValidBlock(p, b) && |q.blocks| == |p.blocks|
  {
    && Successors(q, b) == targets
    && (forall k | 0 <= k < |p.blocks| && k != b.id :: q.blocks[k].successors == p.blocks[k].successors)
    && (forall k | 0 <= k < |p.blocks| ::
          q.blocks[k].predecessors ==
            if BlockId(k) in targets then WithPredecessor(p.blocks[k].predecessors, b) else p.blocks[k].predecessors)
  }

  lemma {:induction false} JumpEdges(bb: BasicBlockBuilder, to: BlockId)
    requires Bound(bb) && ValidBlock(bb.proc, to)
    ensures TerminalEdges(bb.proc, AddJump(bb, to).proc, bb.block, [to])
  {
    var q := AddJump(bb, to).proc;
    assert Successors(q, bb.block) == [to];
    forall k | 0 <= k < |bb.proc.blocks|
      ensures q.blocks[k].predecessors ==
        if BlockId(k) in [to] then WithPredecessor(bb.proc.blocks[k].predecessors, bb.block) else bb.proc.blocks[k].predecessors
    {
      assert BlockId(k) in [to] <==> k == to.id;
    }
  }

  lemma {:induction false} BranchEdges(bb: BasicBlockBuilder, condition: ValueId, taken: BlockId, notTaken: FrequentBlock)
    requires Bound(bb) && ValidBlock(bb.proc, taken) && ValidBlock(bb.proc, notTaken.0)
    ensures TerminalEdges(bb.proc, AddBranch(bb, condition, taken, notTaken).proc, bb.block, [taken, notTaken.0])
  {
    var q := AddBranch(bb, condition, taken, notTaken).proc;
    var targets := [taken, notTaken.0];
    assert Successors(q, bb.block) == targets;
    forall k | 0 <= k < |bb.proc.blocks|
      ensures q.blocks[k].predecessors ==
        if BlockId(k) in targets then WithPredecessor(bb.proc.blocks[k].predecessors, bb.block) else bb.proc.blocks[k].predecessors
    {
      assert BlockId(k) in targets <==> k == taken.id || k == notTaken.0.id;
    }
  }

  /** A jump installed on a block that had no successors keeps the
      predecessor/successor duality. */
  lemma {:induction false} AddJumpPreservesDuality(bb: BasicBlockBuilder, to: BlockId)
    requires Bound(bb) && ValidBlock(bb.proc, to)
    requires bb.proc.blocks[bb.block.id].successors == []
    requires EdgesDual(bb.proc)
    ensures EdgesDual(AddJump(bb, to).proc)
  {
    JumpEdges(bb, to);
    TerminalPreservesDuality(bb.proc, AddJump(bb, to).proc, bb.block, [to]);
  }

  /** A branch installed on a block that had no successors keeps the
      predecessor/successor duality. */
  lemma {:induction false} AddBranchPreservesDuality(bb: BasicBlockBuilder, condition: ValueId, taken: BlockId, notTaken: FrequentBlock)
    requires Bound(bb) && ValidBlock(bb.proc, taken) && ValidBlock(bb.proc, notTaken.0)
    requires bb.proc.blocks[bb.block.id].successors == []
    requires EdgesDual(bb.proc)
    ensures EdgesDual(AddBranch(bb, condition, taken, notTaken).proc)
  {
    BranchEdges(bb, condition, taken, notTaken);
    TerminalPreservesDuality(bb.proc, AddBranch(bb, condition, taken, notTaken).proc, bb.block, [taken, notTaken.0]);
  }

  /** The terminal installers keep every predecessor list duplicate-free,
      however often a block is retargeted. */
  lemma TerminalsKeepPredecessorsDistinct(bb: BasicBlockBuilder, condition: ValueId, to: BlockId, notTaken: FrequentBlock)
    requires Bound(bb) && ValidBlock(bb.proc, to) && ValidBlock(bb.proc, notTaken.0)
    requires PredecessorsDistinct(bb.proc)
    ensures PredecessorsDistinct(AddJump(bb, to).proc)
    ensures PredecessorsDistinct(AddBranch(bb, condition, to, notTaken).proc)
  {
    var jump := AddJumpValue(bb.proc);
    LinkPredecessorKeepsDistinct(Terminate(jump.proc, bb.block, jump.id, [(to, Normal)]), to, bb.block);
    var branch := AddBranchValue(bb.proc, condition);
    var terminated := Terminate(branch.proc, bb.block, branch.id, [(to, Normal), notTaken]);
    LinkPredecessorKeepsDistinct(terminated, notTaken.0, bb.block);
    LinkPredecessorKeepsDistinct(LinkPredecessor(terminated, notTaken.0, bb.block), to, bb.block);
  }

  /** The builder does not restore duality when a block is given a second
      terminal: after jumping to `t1` and then to `t2`, the block is still
      listed among `t1`'s predecessors although `t1` is no longer one of its
      successors. */
  lemma {:induction false} RetargetLeavesStalePredecessor(bb: BasicBlockBuilder, t1: BlockId, t2: BlockId)
    requires Bound(bb) && ValidBlock(bb.proc, t1) && ValidBlock(bb.proc, t2) && t1 != t2
    ensures var second := AddJump(AddJump(bb, t1), t2).proc;
      && bb.block in Predecessors(second, t1)
      && t1 !in Successors(second, bb.block)
      && !EdgesDual(second)
  {
    var first := AddJump(bb, t1);
    var second := AddJump(first, t2).proc;
    assert bb.block in Predecessors(first.proc, t1);
    assert Successors(second, bb.block) == [t2];
    assert Predecessors(second, t1) == Predecessors(first.proc, t1);
  }

  /** A procedure with no edges at all trivially satisfies the edge
      invariants. */
  lemma EdgeFreeIsConsistent(p: Procedure)
    requires forall k | 0 <= k < |p.blocks| :: p.blocks[k].successors == [] && p.blocks[k].predecessors == []
    ensures EdgesInRange(p) && EdgesDual(p)
  {
    assert forall k | 0 <= k < |p.blocks| :: Successors(p, BlockId(k)) == [] && Predecessors(p, BlockId(k)) == [];
  }

  /** Blocks that are all as `add_block` creates them satisfy every
      structural invariant. */
  lemma FreshBlocksAreConsistent(p: Procedure)
    requires forall k | 0 <= k < |p.blocks| :: p.blocks[k] == NewBlock(k)
    ensures EdgesInRange(p) && EdgesDual(p) && IndexCoherent(p) && BlockValuesInStore(p)
  {
    EdgeFreeIsConsistent(p);
  }

  /** Four empty blocks, numbered 0 to 3. */
  function FourBlocks(): (p: Procedure)
    ensures |p.blocks| == 4 && EdgesInRange(p) && EdgesDual(p) && IndexCoherent(p) && BlockValuesInStore(p)
    ensures forall k | 0 <= k < 4 :: p.blocks[k].successors == [] && p.blocks[k].predecessors == []
  {
    var p1 := AddBlock(NewProcedure()).proc;
    var p2 := AddBlock(p1).proc;
    var p3 := AddBlock(p2).proc;
    var p4 := AddBlock(p3).proc;
    assert p4.blocks == [NewBlock(0), NewBlock(1), NewBlock(2), NewBlock(3)];
    FreshBlocksAreConsistent(p4);
    p4
  }

  /** The diamond 0 -> branch(1, 2), 1 -> jump(3), 2 -> jump(3): four
      edge-free blocks given these three terminals in turn, each with the
      effect `BranchEdges` and `JumpEdges` establish for the builder, end
      with exactly the diamond's edges on both sides, in duality. */
  lemma {:induction false} DiamondEdges(p: Procedure, entry: Procedure, left: Procedure, d: Procedure)
    requires |p.blocks| == 4 && |entry.blocks| == 4 && |left.blocks| == 4 && |d.blocks| == 4
    requires forall k | 0 <= k < 4 :: p.blocks[k].successors == [] && p.blocks[k].predecessors == []
    requires TerminalEdges(p, entry, BlockId(0), [BlockId(1), BlockId(2)])
    requires TerminalEdges(entry, left, BlockId(1), [BlockId(3)])
    requires TerminalEdges(left, d, BlockId(2), [BlockId(3)])
    ensures Successors(d, BlockId(0)) == [BlockId(1), BlockId(2)] && Predecessors(d, BlockId(0)) == []
    ensures Successors(d, BlockId(1)) == [BlockId(3)] && Predecessors(d, BlockId(1)) == [BlockId(0)]
    ensures Successors(d, BlockId(2)) == [BlockId(3)] && Predecessors(d, BlockId(2)) == [BlockId(0)]
    ensures Successors(d, BlockId(3)) == [] && Predecessors(d, BlockId(3)) == [BlockId(1), BlockId(2)]
    ensures EdgesDual(d)
  {
    assert Predecessors(entry, BlockId(3)) == [];
    assert Predecessors(left, BlockId(3)) == [BlockId(1)];
    assert BlockId(2) !in [BlockId(1)];
    EdgeFreeIsConsistent(p);
    TerminalPreservesDuality(p, entry, BlockId(0), [BlockId(1), BlockId(2)]);
    TerminalPreservesDuality(entry, left, BlockId(1), [BlockId(3)]);
    TerminalPreservesDuality(left, d, BlockId(2), [BlockId(3)]);
  }
}

=== FILE: ids.dfy ===
/** Handles into the procedure's stable-id stores, and the optional-value
    wrapper the IR modules share. */
module Ids {

  datatype Option<+T> = None | Some(value: T)

  /** Dense, permanent handle of a value in the procedure's value store. */
  datatype ValueId = ValueId(id: nat)

  /** Handle of a basic block: its position in the procedure's block vector. */
  datatype BlockId = BlockId(id: nat)

  /** Handle of a typed mutable variable slot. */
  datatype VariableId = VariableId(id: nat)

  /** `usize::MAX` on a 64-bit target. */
  const USIZE_MAX: nat := 0xFFFF_FFFF_FFFF_FFFF

  /** Number of distinct `usize` values, the modulus of wrapping arithmetic. */
  const USIZE_MODULUS: nat := 0x1_0000_0000_0000_0000
}

=== FILE: procedure.dfy ===
/** A procedure of the mid-level IR: a vector of basic blocks, an
    append-only value store, a variable store, and the lazily filled caches
    of the dominator and natural-loop analyses. Value constructors never
    place the new value in a block; `AddToBlock` does that. */
module Proc {
  import opened Ids
  import opened Block

  // ---------------------------------------------------------------------
  // Types, opcodes and values

  datatype TypeKind = Void | Int32 | Int64 | Float | Double | Tuple(tuple: nat)

  /** The opcodes the modelled constructors mention, plus a representative
      set of binary operations. */
  datatype Opcode =
    | Nop | Identity
    | Const32 | Const64 | ConstFloat | ConstDouble
    | Get | Set | ArgumentReg | BitwiseCast
    | Add | Sub | Mul | Div | Mod | BitAnd | BitOr | BitXor | Shl | SShr | ZShr
    | Equal | NotEqual | LessThan | GreaterThan | LessEqual | GreaterEqual
    | Load8Z | Load8S | Load16Z | Load16S | Load
    | Store8 | Store16 | Store
    | Jump | Branch | Return

  predicate IsBinary(op: Opcode) {
    op in {Add, Sub, Mul, Div, Mod, BitAnd, BitOr, BitXor, Shl, SShr, ZShr,
           Equal, NotEqual, LessThan, GreaterThan, LessEqual, GreaterEqual}
  }

  predicate IsNarrowLoad(op: Opcode) {
    op in {Load8Z, Load8S, Load16Z, Load16S}
  }

  predicate IsStore(op: Opcode) {
    op in {Store8, Store16, Store}
  }

  /** An opcode together with its flag bits, carried through unchanged. */
  datatype Kind = Kind(opcode: Opcode, flags: nat)

  /** Opcode-specific payload of a value. */
  datatype ValueData =
    | NoData
    | VariableRef(variable: VariableId)
    | ArgumentIndex(ix: nat)
    | MemoryValue(offset: int, range: (nat, nat), fenceRange: (nat, nat))
    | Constant(bits: int)

  datatype Value = Value(
    kind: Kind,
    typ: TypeKind,
    children: seq<ValueId>,
    data: ValueData,
    owner: Option<BlockId>)

  /** A freshly constructed value: no owning block yet. */
  function MakeValue(kind: Kind, typ: TypeKind, children: seq<ValueId>, data: ValueData): Value {
    Value(kind, typ, children, data, None)
  }

  datatype Variable = Variable(typ: TypeKind)

  /** The analysis results are computed by algorithms outside this model;
      each records the CFG it was computed from, so a cache that outlives a
      CFG edit is visibly stale. */
  datatype Dominators = Dominators(cfg: seq<BasicBlock>)
  datatype NaturalLoops = NaturalLoops(cfg: seq<BasicBlock>, dominators: Dominators)

  datatype Procedure = Procedure(
    values: seq<Value>,
    blocks: seq<BasicBlock>,
    variables: seq<Variable>,
    dominators: Option<Dominators>,
    naturalLoops: Option<NaturalLoops>)

  /** A procedure together with the handle a factory call created in it. */
  datatype Fresh<I> = Fresh(proc: Procedure, id: I)

  /** The fatal assertions a constructor can hit. */
  datatype Fault =
    | InvalidConstantType
    | BinaryTypeMismatch
    | NotBinary
    | NarrowLoadType
    | NotALoad
    | NotAStore

  datatype Result<T> = Ok(value: T) | Panic(fault: Fault)

  function NewProcedure(): Procedure {
    Procedure([], [], [], None, None)
  }

  predicate ValidBlock(p: Procedure, b: BlockId) {
    b.id < |p.blocks|
  }

  predicate ValidValue(p: Procedure, v: ValueId) {
    v.id < |p.values|
  }

  predicate ValidVariable(p: Procedure, x: VariableId) {
    x.id < |p.variables|
  }

  /** Every value a block lists exists in the value store. */
  predicate BlockValuesInStore(p: Procedure) {
    forall k, i | 0 <= k < |p.blocks| && 0 <= i < |p.blocks[k].values| ::
      p.blocks[k].values[i].id < |p.values|
  }

  /** Every block's stored index is its position in the block vector. */
  predicate IndexCoherent(p: Procedure) {
    forall k | 0 <= k < |p.blocks| :: p.blocks[k].index == k
  }

  /** Every predecessor and successor entry names an existing block. */
  predicate EdgesInRange(p: Procedure) {
    forall k | 0 <= k < |p.blocks| ::
      && (forall i | 0 <= i < |p.blocks[k].predecessors| :: p.blocks[k].predecessors[i].id < |p.blocks|)
      && (forall i | 0 <= i < |p.blocks[k].successors| :: p.blocks[k].successors[i].0.id < |p.blocks|)
  }

  // ---------------------------------------------------------------------
  // Graph view consumed by the dominator and loop analyses

  function Root(p: Procedure): BlockId {
    BlockId(0)
  }

  function NumNodes(p: Procedure): nat {
    |p.blocks|
  }

  function NodeIndex(p: Procedure, n: BlockId): nat {
    n.id
  }

  /** Every index names a node, in range or not. */
  function Node(p: Procedure, index: nat): Option<BlockId> {
    Some(BlockId(index))
  }

  function Successors(p: Procedure, b: BlockId): seq<BlockId>
    requires ValidBlock(p, b)
  {
    Targets(p.blocks[b.id].successors)
  }

  function Predecessors(p: Procedure, b: BlockId): seq<BlockId>
    requires ValidBlock(p, b)
  {
    p.blocks[b.id].predecessors
  }

  /** The predecessor/successor duality: `c` is a successor of `a` exactly
      when `a` is a predecessor of `c`. */
  ghost predicate EdgesDual(p: Procedure) {
    forall a, c | 0 <= a < |p.blocks| && 0 <= c < |p.blocks| ::
      BlockId(c) in Successors(p, BlockId(a)) <==> BlockId(a) in Predecessors(p, BlockId(c))
  }

  lemma GraphView(p: Procedure, b: BlockId, i: nat)
    requires ValidBlock(p, b)
    ensures Node(p, NodeIndex(p, b)) == Some(b)
    ensures NodeIndex(p, Node(p, i).value) == i
    ensures Root(p) == BlockId(0) && NumNodes(p) == |p.blocks|
    ensures |Successors(p, b)| == |p.blocks[b.id].successors|
    ensures forall k | 0 <= k < |Successors(p, b)| :: Successors(p, b)[k] == p.blocks[b.id].successors[k].0
    ensures Predecessors(p, b) == p.blocks[b.id].predecessors
  {
  }

  // ---------------------------------------------------------------------
  // Blocks

  function AddBlock(p: Procedure): (r: Fresh<BlockId>)
    ensures r.id == BlockId(|p.blocks|)
    ensures |r.proc.blocks| == |p.blocks| + 1 && r.proc.blocks[..|p.blocks|] == p.blocks
    ensures r.proc.blocks[r.id.id].index == r.id.id
    ensures r.proc.blocks[r.id.id].values == []
    ensures r.proc.blocks[r.id.id].predecessors == [] && r.proc.blocks[r.id.id].successors == []
    ensures r.proc == p.(blocks := r.proc.blocks)
  {
    var q := p.(blocks := p.blocks + [NewBlock(|p.blocks|)]);
    Fresh(q, BlockId(|q.blocks| - 1))
  }

  function AddToBlock(p: Procedure, b: BlockId, v: ValueId): (r: Procedure)
    requires ValidBlock(p, b)
    ensures |r.blocks| == |p.blocks|
    ensures r.blocks[b.id].values == p.blocks[b.id].values + [v]
    ensures r.blocks[b.id] == p.blocks[b.id].(values := r.blocks[b.id].values)
    ensures forall k | 0 <= k < |p.blocks| && k != b.id :: r.blocks[k] == p.blocks[k]
    ensures r == p.(blocks := r.blocks)
  {
    p.(blocks := p.blocks[b.id := Append(p.blocks[b.id], v)])
  }

  /** A new block has no edges, so the structural invariants survive it. */
  lemma AddBlockPreservesInvariants(p: Procedure)
    requires EdgesInRange(p)
    ensures IndexCoherent(p) ==> IndexCoherent(AddBlock(p).proc)
    ensures EdgesInRange(AddBlock(p).proc)
    ensures EdgesDual(p) ==> EdgesDual(AddBlock(p).proc)
    ensures BlockValuesInStore(p) ==> BlockValuesInStore(AddBlock(p).proc)
  {
    var q := AddBlock(p).proc;
    var n := |p.blocks|;
    assert forall k | 0 <= k < n :: q.blocks[k] == p.blocks[k];
    if EdgesDual(p) {
      forall a, c | 0 <= a < |q.blocks| && 0 <= c < |q.blocks|
        ensures BlockId(c) in Successors(q, BlockId(a)) <==> BlockId(a) in Predecessors(q, BlockId(c))
      {
        if a == n || c == n {
          if a < n {
            assert forall i | 0 <= i < |p.blocks[a].successors| :: p.blocks[a].successors[i].0.id < n;
          }
          if c < n {
            assert forall i | 0 <= i < |p.blocks[c].predecessors| :: p.blocks[c].predecessors[i].id < n;
          }
        } else {
          assert Successors(q, BlockId(a)) == Successors(p, BlockId(a));
          assert Predecessors(q, BlockId(c)) == Predecessors(p, BlockId(c));
        }
      }
    }
  }

  /** Appending a value touches no edge list and no block index. */
  lemma AddToBlockPreservesInvariants(p: Procedure, b: BlockId, v: ValueId)
    requires ValidBlock(p, b)
    ensures IndexCoherent(p) ==> IndexCoherent(AddToBlock(p, b, v))
    ensures EdgesInRange(p) ==> EdgesInRange(AddToBlock(p, b, v))
    ensures EdgesDual(p) ==> EdgesDual(AddToBlock(p, b, v))
    ensures BlockValuesInStore(p) && ValidValue(p, v) ==> BlockValuesInStore(AddToBlock(p, b, v))
  {
    var q := AddToBlock(p, b, v);
    assert forall k | 0 <= k < |p.blocks| :: Successors(q, BlockId(k)) == Successors(p, BlockId(k));
    assert forall k | 0 <= k < |p.blocks| :: Predecessors(q, BlockId(k)) == Predecessors(p, BlockId(k));
  }

  // ---------------------------------------------------------------------
  // Value store

  /** Shape of a factory call: the store grew by exactly the new value, at
      the next free id, and nothing else changed. */
  predicate Appends(p: Procedure, r: Fresh<ValueId>) {
    && r.id == ValueId(|p.values|)
    && |r.proc.values| == |p.values| + 1
    && r.proc.values[..|p.values|] == p.values
    && r.proc == p.(values := r.proc.values)
  }

  /** The value a factory call created. */
  function Created(r: Fresh<ValueId>): Value
    requires r.id.id < |r.proc.values|
  {
    r.proc.values[r.id.id]
  }

  function AddValue(p: Procedure, v: Value): (r: Fresh<ValueId>)
    ensures Appends(p, r) && Created(r) == v
  {
    Fresh(p.(values := p.values + [v]), ValueId(|p.values|))
  }

  /** Duplicates an existing value under a fresh id. */
  function Clone(p: Procedure, id: ValueId): (r: Fresh<ValueId>)
    requires ValidValue(p, id)
    ensures Appends(p, r) && Created(r) == p.values[id.id]
    ensures r.id != id
  {
    AddValue(p, p.values[id.id])
  }

  // ---------------------------------------------------------------------
  // Integer constants

  type i64 = x: int | -0x8000_0000_0000_0000 <= x < 0x8000_0000_0000_0000
  type u64 = x: int | 0 <= x < 0x1_0000_0000_0000_0000

  const I32_MODULUS: nat := 0x1_0000_0000
  const U64_MODULUS: nat := 0x1_0000_0000_0000_0000

  predicate InI32(x: int) {
    -0x8000_0000 <= x < 0x8000_0000
  }

  /** An `as i32` cast: keep the low 32 bits and read them as signed. */
  function WrapToI32(x: int): (r: int)
    ensures InI32(r)
    ensures (x - r) % I32_MODULUS == 0
    ensures InI32(x) ==> r == x
  {
    var low := x % I32_MODULUS;
    if low < 0x8000_0000 then low else low - I32_MODULUS
  }

  /** A `u64 as i64` cast: the two's-complement reading of the same bits. */
  function U64AsI64(u: u64): (r: i64)
    ensures (u - r) % U64_MODULUS == 0
    ensures u < 0x8000_0000_0000_0000 ==> r == u
  {
    if u < 0x8000_0000_0000_0000 then u else u - U64_MODULUS
  }

  /** An `i64 as u64` cast, the inverse reinterpretation. */
  function I64AsU64(x: i64): (r: u64)
    ensures (x - r) % U64_MODULUS == 0
    ensures x >= 0 ==> r == x
  {
    if x >= 0 then x else x + U64_MODULUS
  }

  lemma ReinterpretRoundTrip(u: u64, x: i64)
    ensures I64AsU64(U64AsI64(u)) == u
    ensures U64AsI64(I64AsU64(x)) == x
  {
  }

  function ConstValue(typ: TypeKind, payload: int): Value
    requires typ == Int32 || typ == Int64
  {
    var op := if typ == Int32 then Const32 else Const64;
    MakeValue(Kind(op, 0), typ, [], Constant(payload))
  }

  /** An integer constant of type `typ` from a signed 64-bit source. The
      Float and Double arms are outside this model. */
  function AddIntConstant(p: Procedure, typ: TypeKind, x: i64): (r: Result<Fresh<ValueId>>)
    requires typ != Float && typ != Double
    ensures r.Ok? <==> typ == Int32 || typ == Int64
    ensures r.Panic? ==> r.fault == InvalidConstantType
    ensures r.Ok? ==> Appends(p, r.value) && Created(r.value).typ == typ
    ensures r.Ok? ==> Created(r.value).children == [] && Created(r.value).data.Constant?
    ensures r.Ok? && typ == Int32 ==>
      var c := Created(r.value).data.bits; InI32(c) && (x - c) % I32_MODULUS == 0
    ensures r.Ok? && typ == Int32 && InI32(x) ==> Created(r.value).data.bits == x
    ensures r.Ok? && typ == Int64 ==> Created(r.value).data.bits == x
  {
    match typ
    case Int32 => Ok(AddValue(p, ConstValue(Int32, WrapToI32(x))))
    case Int64 => Ok(AddValue(p, ConstValue(Int64, x)))
    case _ => Panic(InvalidConstantType)
  }

  /** An integer constant of type `typ` from a raw 64-bit pattern. The Float
      and Double arms are outside this model. */
  function AddBitsConstant(p: Procedure, typ: TypeKind, u: u64): (r: Result<Fresh<ValueId>>)
    requires typ != Float && typ != Double
    ensures r.Ok? <==> typ == Int32 || typ == Int64
    ensures r.Panic? ==> r.fault == InvalidConstantType
    ensures r.Ok? ==> Appends(p, r.value) && Created(r.value).typ == typ
    ensures r.Ok? ==> Created(r.value).children == [] && Created(r.value).data.Constant?
    ensures r.Ok? && typ == Int32 ==>
      var c := Created(r.value).data.bits; InI32(c) && (u - c) % I32_MODULUS == 0
    ensures r.Ok? && typ == Int64 ==>
      var c := Created(r.value).data.bits;
      -0x8000_0000_0000_0000 <= c < 0x8000_0000_0000_0000 && (u - c) % U64_MODULUS == 0
  {
    match typ
    case Int32 => Ok(AddValue(p, ConstValue(Int32, WrapToI32(u))))
    case Int64 => Ok(AddValue(p, ConstValue(Int64, U64AsI64(u))))
    case _ => Panic(InvalidConstantType)
  }

  /** Truncation depends only on the value modulo 2^32. */
  lemma {:induction false} WrapToI32Congruent(x: int, y: int)
    requires (x - y) % I32_MODULUS == 0
    ensures WrapToI32(x) == WrapToI32(y)
  {
    var d := (x - y) / I32_MODULUS;
    assert x == y + d * I32_MODULUS;
    ModShift(y, d);
  }

  lemma ModShift(y: int, d: int)
    ensures (y + d * I32_MODULUS) % I32_MODULUS == y % I32_MODULUS
  {
  }

  /** The bits constructor is the integer constructor applied to the
      two's-complement reading of the bits. */
  lemma {:induction false} BitsConstantIsReinterpretation(p: Procedure, u: u64, x: i64)
    ensures AddBitsConstant(p, Int64, u) == AddIntConstant(p, Int64, U64AsI64(u))
    ensures AddBitsConstant(p, Int64, I64AsU64(x)) == AddIntConstant(p, Int64, x)
    ensures AddBitsConstant(p, Int32, u) == AddIntConstant(p, Int32, U64AsI64(u))
  {
    var s := U64AsI64(u);
    if u >= 0x8000_0000_0000_0000 {
      assert u - s == U64_MODULUS;
      assert U64_MODULUS == 0x1_0000_0000 * I32_MODULUS;
      assert (u - s) % I32_MODULUS == 0;
    }
    WrapToI32Congruent(u, s);
  }

  /** Worked values of the 32-bit arm. */
  lemma ConstantExamples(p: Procedure)
    ensures AddIntConstant(p, Int32, 42).value.proc.values[|p.values|].data == Constant(42)
    ensures AddIntConstant(p, Int32, 0x1_0000_0005).value.proc.values[|p.values|].data == Constant(5)
    ensures AddIntConstant(p, Int32, 0x8000_0000).value.proc.values[|p.values|].data == Constant(-0x8000_0000)
    ensures AddBitsConstant(p, Int64, 0xFFFF_FFFF_FFFF_FFFF).value.proc.values[|p.values|].data == Constant(-1)
    ensures AddIntConstant(p, Void, 1) == Panic(InvalidConstantType)
  {
  }

  // ---------------------------------------------------------------------
  // Checked constructors

  /** A binary operation: both operands must have the same type, checked
      first, and the opcode must be binary. */
  function AddBinary(p: Procedure, kind: Kind, lhs: ValueId, rhs: ValueId): (r: Result<Fresh<ValueId>>)
    requires ValidValue(p, lhs) && ValidValue(p, rhs)
    ensures r.Ok? <==> p.values[lhs.id].typ == p.values[rhs.id].typ && IsBinary(kind.opcode)
    ensures r.Panic? ==> (r.fault == BinaryTypeMismatch <==> p.values[lhs.id].typ != p.values[rhs.id].typ)
    ensures r.Panic? ==> r.fault in {BinaryTypeMismatch, NotBinary}
    ensures r.Ok? ==> Appends(p, r.value)
    ensures r.Ok? ==> var v := Created(r.value);
      && v.kind == kind && v.typ == p.values[lhs.id].typ && v.typ == p.values[rhs.id].typ
      && v.children == [lhs, rhs] && v.data == NoData && v.owner == None
  {
    var typ := p.values[lhs.id].typ;
    if typ != p.values[rhs.id].typ then Panic(BinaryTypeMismatch)
    else if !IsBinary(kind.opcode) then Panic(NotBinary)
    else Ok(AddValue(p, MakeValue(kind, typ, [lhs, rhs], NoData)))
  }

  /** A load: narrow loads must produce Int32, a plain load any type, and any
      other opcode is rejected. */
  function AddLoad(p: Procedure, kind: Kind, typ: TypeKind, pointer: ValueId, offset: int,
                   range: (nat, nat), fenceRange: (nat, nat)): (r: Result<Fresh<ValueId>>)
    ensures r.Ok? <==> kind.opcode == Load || (IsNarrowLoad(kind.opcode) && typ == Int32)
    ensures r.Panic? ==> (r.fault == NotALoad <==> !IsNarrowLoad(kind.opcode) && kind.opcode != Load)
    ensures r.Panic? ==> r.fault in {NotALoad, NarrowLoadType}
    ensures r.Ok? ==> Appends(p, r.value)
    ensures r.Ok? ==> var v := Created(r.value);
      && v.kind == kind && v.typ == typ && v.children == [pointer]
      && v.data == MemoryValue(offset, range, fenceRange) && v.owner == None
  {
    var v := MakeValue(kind, typ, [pointer], MemoryValue(offset, range, fenceRange));
    match kind.opcode
    case Load8Z | Load8S | Load16Z | Load16S =>
      if typ != Int32 then Panic(NarrowLoadType) else Ok(AddValue(p, v))
    case Load => Ok(AddValue(p, v))
    case _ => Panic(NotALoad)
  }

  /** A store: a Void value whose children are the stored value then the
      pointer. */
  function AddStore(p: Procedure, kind: Kind, value: ValueId, pointer: ValueId, offset: int,
                    range: (nat, nat), fenceRange: (nat, nat)): (r: Result<Fresh<ValueId>>)
    ensures r.Ok? <==> IsStore(kind.opcode)
    ensures r.Panic? ==> r.fault == NotAStore
    ensures r.Ok? ==> Appends(p, r.value)
    ensures r.Ok? ==> var v := Created(r.value);
      && v.kind == kind && v.typ == Void && v.children == [value, pointer]
      && v.data == MemoryValue(offset, range, fenceRange) && v.owner == None
  {
    if !IsStore(kind.opcode) then Panic(NotAStore)
    else Ok(AddValue(p, MakeValue(kind, Void, [value, pointer], MemoryValue(offset, range, fenceRange))))
  }

  // ---------------------------------------------------------------------
  // Variables

  function AddVariable(p: Procedure, typ: TypeKind): (r: Fresh<VariableId>)
    ensures r.id == VariableId(|p.variables|) && ValidVariable(r.proc, r.id)
    ensures r.proc.variables[r.id.id].typ == typ
    ensures |r.proc.variables| == |p.variables| + 1 && r.proc.variables[..|p.variables|] == p.variables
    ensures r.proc == p.(variables := r.proc.variables)
  {
    Fresh(p.(variables := p.variables + [Variable(typ)]), VariableId(|p.variables|))
  }

  /** A read of a variable has the variable's type and no children. */
  function AddVariableGet(p: Procedure, x: VariableId): (r: Fresh<ValueId>)
    requires ValidVariable(p, x)
    ensures Appends(p, r)
    ensures Created(r).typ == p.variables[x.id].typ
    ensures Created(r).kind.opcode == Get && Created(r).children == []
    ensures Created(r).data == VariableRef(x)
  {
    AddValue(p, MakeValue(Kind(Get, 0), p.variables[x.id].typ, [], VariableRef(x)))
  }

  /** A write of a variable is a Void value whose only child is the value. */
  function AddVariableSet(p: Procedure, x: VariableId, value: ValueId): (r: Fresh<ValueId>)
    ensures Appends(p, r)
    ensures Created(r).typ == Void && Created(r).kind.opcode == Set
    ensures Created(r).children == [value] && Created(r).data == VariableRef(x)
  {
    AddValue(p, MakeValue(Kind(Set, 0), Void, [value], VariableRef(x)))
  }

  /** A get of a variable written by a set reads back the set value's
      variable and has the variable's declared type. */
  lemma VariableGetAfterSet(p: Procedure, typ: TypeKind, value: ValueId)
    ensures var declared := AddVariable(p, typ);
      var written := AddVariableSet(declared.proc, declared.id, value);
      var read := AddVariableGet(written.proc, declared.id);
      && Created(read).typ == typ
      && Created(read).data == Created(written).data
      && read.id.id == written.id.id + 1
  {
  }

  // ---------------------------------------------------------------------
  // Terminal values

  /** A jump: a Void value with no children. */
  function AddJumpValue(p: Procedure): (r: Fresh<ValueId>)
    ensures Appends(p, r)
    ensures Created(r).kind.opcode == Jump && Created(r).typ == Void && Created(r).children == []
    ensures Created(r).data == NoData
  {
    AddValue(p, MakeValue(Kind(Jump, 0), Void, [], NoData))
  }

  /** The branch constructor the builder calls. Its definition is not part
      of this model; it is taken to append one fresh Void value that reads
      the condition. */
  function AddBranchValue(p: Procedure, condition: ValueId): (r: Fresh<ValueId>)
    ensures Appends(p, r)
    ensures Created(r).typ == Void && Created(r).children == [condition]
  {
    AddValue(p, MakeValue(Kind(Branch, 0), Void, [condition], NoData))
  }

  // ---------------------------------------------------------------------
  // Owner stamping

  /** The position of the last block, in storage order, that lists `v`. */
  function LastListing(blocks: seq<BasicBlock>, v: ValueId): (r: Option<nat>)
    ensures r.Some? ==> r.value < |blocks| && v in blocks[r.value].values
    ensures r.Some? ==> forall j | r.value < j < |blocks| :: v !in blocks[j].values
    ensures r.None? <==> forall j | 0 <= j < |blocks| :: v !in blocks[j].values
    decreases |blocks|
  {
    if |blocks| == 0 then None
    else if v in blocks[|blocks| - 1].values then Some(|blocks| - 1)
    else LastListing(blocks[..|blocks| - 1], v)
  }

  /** Sets the owner of each listed value, left to right. */
  function StampOwner(values: seq<Value>, ids: seq<ValueId>, owner: BlockId): (r: seq<Value>)
    requires forall i | 0 <= i < |ids| :: ids[i].id < |values|
    ensures |r| == |values|
    ensures forall k | 0 <= k < |values| ::
      r[k] == if ValueId(k) in ids then values[k].(owner := Some(owner)) else values[k]
    decreases |ids|
  {
    if |ids| == 0 then values
    else
      var v := ids[0].id;
      var r := StampOwner(values[v := values[v].(owner := Some(owner))], ids[1..], owner);
      assert forall k | 0 <= k < |values| :: ValueId(k) in ids <==> (k == v || ValueId(k) in ids[1..]);
      r
  }

  /** Visits the blocks in storage order, stamping each block's values with
      the block's own index; a later block overwrites an earlier one. */
  function StampBlocks(values: seq<Value>, blocks: seq<BasicBlock>): (r: seq<Value>)
    requires forall k, i | 0 <= k < |blocks| && 0 <= i < |blocks[k].values| :: blocks[k].values[i].id < |values|
    ensures |r| == |values|
    ensures forall k | 0 <= k < |values| ::
      r[k] == match LastListing(blocks, ValueId(k))
        case Some(j) => values[k].(owner := Some(BlockId(blocks[j].index)))
        case None => values[k]
    decreases |blocks|
  {
    if |blocks| == 0 then values
    else
      var last := blocks[|blocks| - 1];
      var earlier := StampBlocks(values, blocks[..|blocks| - 1]);
      StampOwner(earlier, last.values, BlockId(last.index))
  }

  /** The batch pass that recomputes every value's owning block. */
  function ResetValueOwners(p: Procedure): (r: Procedure)
    requires BlockValuesInStore(p)
    ensures |r.values| == |p.values|
    ensures forall k | 0 <= k < |p.values| :: r.values[k] == p.values[k].(owner := r.values[k].owner)
    ensures forall k | 0 <= k < |p.values| ::
      match LastListing(p.blocks, ValueId(k))
      case Some(j) => r.values[k].owner == Some(BlockId(p.blocks[j].index))
      case None => r.values[k].owner == p.values[k].owner
    ensures r == p.(values := r.values)
  {
    p.(values := StampBlocks(p.values, p.blocks))
  }

  /** When each block's index is its position, a listed value is owned by
      the last block, in storage order, that lists it. */
  lemma OwnerIsLastListingBlock(p: Procedure, v: ValueId, j: nat)
    requires BlockValuesInStore(p) && IndexCoherent(p) && ValidValue(p, v)
    requires j < |p.blocks| && v in p.blocks[j].values
    requires forall k | j < k < |p.blocks| :: v !in p.blocks[k].values
    ensures ResetValueOwners(p).values[v.id].owner == Some(BlockId(j))
  {
    var r := LastListing(p.blocks, v);
    assert r.Some?;
    if r.value < j {
    } else if r.value > j {
    }
  }

  /** Recomputing owners a second time changes nothing. */
  lemma {:induction false} ResetValueOwnersIdempotent(p: Procedure)
    requires BlockValuesInStore(p)
    ensures BlockValuesInStore(ResetValueOwners(p))
    ensures ResetValueOwners(ResetValueOwners(p)) == ResetValueOwners(p)
  {
    var q := ResetValueOwners(p);
    var q2 := ResetValueOwners(q);
    forall k | 0 <= k < |q.values|
      ensures q2.values[k] == q.values[k]
    {
      var listing := LastListing(p.blocks, ValueId(k));
      if listing.Some? {
        assert q.values[k].owner == Some(BlockId(p.blocks[listing.value].index));
      }
    }
  }

  // ---------------------------------------------------------------------
  // Analysis caches

  /** Natural loops are only ever cached alongside dominators. */
  predicate CachesOrdered(p: Procedure) {
    p.naturalLoops.Some? ==> p.dominators.Some?
  }

  /** A cache query's answer together with the procedure it leaves behind. */
  datatype Cached<A> = Cached(proc: Procedure, analysis: A)

  /** Computes dominators from the current CFG unless some are cached; a
      cached result is returned as is, stale or not. */
  function DominatorsOrCompute(p: Procedure): (r: Cached<Dominators>)
    ensures r.proc.dominators == Some(r.analysis)
    ensures p.dominators.Some? ==> r.proc == p
    ensures p.dominators.None? ==> r.analysis.cfg == p.blocks
    ensures r.proc == p.(dominators := r.proc.dominators)
  {
    if p.dominators.None? then
      var q := p.(dominators := Some(Dominators(p.blocks)));
      Cached(q, q.dominators.value)
    else
      Cached(p, p.dominators.value)
  }

  /** Computes natural loops unless some are cached, first making sure
      dominators exist; the loops are built from whatever dominators the
      cache then holds. */
  function NaturalLoopsOrCompute(p: Procedure): (r: Cached<NaturalLoops>)
    ensures r.proc.naturalLoops == Some(r.analysis)
    ensures CachesOrdered(p) ==> r.proc.dominators.Some?
    ensures p.naturalLoops.Some? ==> r.proc == p
    ensures p.naturalLoops.None? ==>
      && r.analysis.cfg == p.blocks
      && r.proc.dominators == Some(r.analysis.dominators)
      && (p.dominators.Some? ==> r.analysis.dominators == p.dominators.value)
      && (p.dominators.None? ==> r.analysis.dominators.cfg == p.blocks)
    ensures p.naturalLoops.None? ==> r.proc.dominators == DominatorsOrCompute(p).proc.dominators
    ensures r.proc == p.(dominators := r.proc.dominators, naturalLoops := r.proc.naturalLoops)
  {
    if p.naturalLoops.None? then
      var q := DominatorsOrCompute(p).proc;
      var loops := NaturalLoops(q.blocks, q.dominators.value);
      Cached(q.(naturalLoops := Some(loops)), loops)
    else
      Cached(p, p.naturalLoops.value)
  }

  /** Both queries are idempotent: a second call returns the same answer and
      leaves the procedure as the first did. */
  lemma CacheQueriesIdempotent(p: Procedure)
    requires CachesOrdered(p)
    ensures CachesOrdered(DominatorsOrCompute(p).proc) && CachesOrdered(NaturalLoopsOrCompute(p).proc)
    ensures DominatorsOrCompute(DominatorsOrCompute(p).proc) == DominatorsOrCompute(p)
    ensures NaturalLoopsOrCompute(NaturalLoopsOrCompute(p).proc) == NaturalLoopsOrCompute(p)
    ensures DominatorsOrCompute(NaturalLoopsOrCompute(p).proc).proc == NaturalLoopsOrCompute(p).proc
  {
  }

  /** Nothing invalidates a cache: after a CFG edit the stored dominators
      still describe the old CFG and are returned as they are. */
  lemma CachesAreNotInvalidated(p: Procedure)
    requires p.dominators.None?
    ensures var cached := DominatorsOrCompute(p).proc;
      var edited := AddBlock(cached).proc;
      && DominatorsOrCompute(edited).analysis.cfg == p.blocks
      && DominatorsOrCompute(edited).analysis.cfg != edited.blocks
  {
  }
}
